=== FILE: README.md ===
# A Dafny model of the linker mesh's message handling

The system is a small service-registry mesh over UDP. *Linkers* (`LieurServeur`)
keep a list of live service instances. Service nodes (`ServiceServeur`) subscribe
to one linker. Clients ask a linker for an instance of a service id. Linkers tell
each other about additions and removals, and a linker probes a service a client
has complained about.

The model is functional. A linker's registry is a `seq<Service>`. Packets are
`seq<byte>`, with a byte being an integer from 0 to 255. One iteration of the
linker's receive loop is a pure function. It takes the registry, the inbound
datagram, the outcome of a probe and the clock, and returns the new registry and
the datagrams sent. There are two of them:

- `Linker.StepAsWritten` is the loop as the code has it.
- `Linker.Step` is the loop with the three defects under Findings corrected.

The two agree on a registry without duplicates whenever an announced port's high
byte is below 0x80 (`Linker.AsWrittenAgreesWithStep`). The other properties are
stated about the corrected step. What a receive returns is always an input:
bootstrap replies, probe replies and the service node's receives.

Modules:

- `Bytes`: Java bytes, receive buffers and the two port decodings.
- `Wire`: message tags, the 7-byte service record and the list response.
- `Registry`: membership, add, remove and the least-recently-used pick.
- `Bootstrap`: the start-up synchronisation with peers.
- `Linker`: the request handlers and the dispatcher.
- `ServiceNode`: the service node's subscription, wait and serving loop.
- `Scenarios`: properties that span several handlers or both kinds of node.

### Where the code and the protocol's design disagree, the model follows the code

- **Bootstrap.** A datagram that is not a list response does not make the linker
  keep waiting. It moves straight on to the next peer (lines 153-169).
- **Duplicates.** Two paths can put the same instance in the registry twice.
  - Subscription appends the new instance without a membership test (line 451).
    A service that subscribes twice is registered twice. In the receive loop this
    is the only handler that can create a duplicate, both as written
    (`Linker.StepAsWritten`) and corrected (`Linker.Step`).
  - Bootstrap copies the peer's records without a membership test (lines
    157-163). A peer's own duplicates are copied. A count byte larger than the
    records carried reads identical all-zero records from the buffer's padding
    (`Scenarios.PaddedListResponseDuplicates`).
- **Capacity.** Nothing limits the registry to 100 entries.
  - The list response's count byte is the size cast to a byte.
  - At bootstrap the count is read as a signed byte. A count of 0 or less adds
    nothing. A count from 101 to 127 indexes past the 702-byte buffer, and the
    linker dies (`Bootstrap.Crashed`).
- **Malformed messages.** Sizes are never checked. Every handler reads the
  zero-padded 100-byte buffer, so a short message reads zeros.
- **Port decoding.** Every decoder reads the same two port bytes, byte 7 of the
  request (byte 8 + 7i of a list response) as the high byte. In the loop as
  written (`Linker.StepAsWritten`), add and remove announcements take them as a
  signed number (see Findings), while complaints, bootstrap and the service
  records read them unsigned. The corrected loop (`Linker.Step`) reads every
  port unsigned.

## Model

| member | source | states |
|---|---|---|
| `Bytes.Receive` | lieur/src/com/heig/LieurServeur.java:78-80 | A fresh n-byte receive buffer holds the datagram's bytes up to n, and zeros after them. |
| `Bytes.DecodePort` | lieur/src/com/heig/LieurServeur.java:160-161 | Reads a port as unsigned, low byte first. Encoding the result gives the same two bytes back. |
| `Bytes.DecodePortSigned` | lieur/src/com/heig/LieurServeur.java:317-318 | The `BigInteger` port reading lies in [-32768, 32768). It equals the unsigned reading exactly when the high byte is below 0x80, and it encodes back to the same bytes. |
| `Bytes.PortRoundTrip` | lieur/src/com/heig/LieurServeur.java:346-347 | Decoding an encoded port gives the port back. |
| `Wire.DecodeRecord` | lieur/src/com/heig/LieurServeur.java:344-347 | A decoded record has a valid port and no timestamp. Re-encoding it gives the 7 bytes it was read from. |
| `Wire.RecordRoundTrip` | lieur/src/com/heig/LieurServeur.java:253-256 | A service record written by `Wire.EncodeRecord` (the id, four address bytes, two port bytes, as at lines 253-256, 423-426 and 456-459) decodes to the service without its timestamp. |
| `Wire.SameIffSameRecord` | lieur/src/com/heig/LieurServeur.java:297-299 | Two services are the same registry entry exactly when their records are equal. |
| `Wire.Records` | lieur/src/com/heig/LieurServeur.java:194-213 | Record i of the concatenation sits at bytes 7i to 7i+6. |
| `Wire.EncodeList` | lieur/src/com/heig/LieurServeur.java:189-191 | The list response is 2 + 7n bytes: the response tag, n as a byte, then record i at offset 2 + 7i. |
| `Wire.ListLayout` | lieur/src/com/heig/LieurServeur.java:201-208 | Record i holds the id at 2+7i, the address at 3+7i to 6+7i, and the port bytes at 7+7i and 8+7i. |
| `Wire.DecodeList` | lieur/src/com/heig/LieurServeur.java:156-163 | The count byte is read signed. A count above 100 overruns the buffer. Otherwise the result has max(count, 0) services, each re-encoding to its 7 bytes at 2 + 7i. |
| `Wire.DecodedFields` | lieur/src/com/heig/LieurServeur.java:158-161 | Bootstrap record i: the id comes from 2+7i and the address from 3+7i to 6+7i. The port is the low byte at 7+7i plus 256 times the high byte at 8+7i. |
| `Wire.ListRoundTrip` | lieur/src/com/heig/LieurServeur.java:154-163 | Bootstrap decoding of a list response with at most 100 entries gives the sender's registry, without timestamps. |
| `Registry.Add` | lieur/src/com/heig/LieurServeur.java:324-326 | After an add the instance is present. A present instance leaves the registry unchanged. An absent one is appended at the end. No duplicate is created. |
| `Registry.AddIdempotent` | lieur/src/com/heig/LieurServeur.java:324-326 | Adding the same instance twice gives the same result as adding it once. |
| `Registry.Remove` | lieur/src/com/heig/LieurServeur.java:413-420 | Keeps exactly the entries that are not the removed instance. Removing an absent instance changes nothing. |
| `Registry.RemoveSingleton` | lieur/src/com/heig/LieurServeur.java:413-420 | A one-entry registry loses its entry exactly when it is the removed instance. |
| `Registry.RemoveAppend` | lieur/src/com/heig/LieurServeur.java:413-420 | Removal from a concatenation is the concatenation of the removals. With `Registry.RemoveSingleton` this fixes the result entry by entry: order kept, every match dropped, every other entry kept. |
| `Registry.RemoveKeepsCopies` | lieur/src/com/heig/LieurServeur.java:294-303 | Every other instance keeps as many copies as it had. |
| `Registry.RemoveRemovesAll` | lieur/src/com/heig/LieurServeur.java:413-420 | No entry for the instance remains after the corrected removal (the loop as written lacks this, see Findings). |
| `Registry.RemoveKeepsNoDuplicates` | lieur/src/com/heig/LieurServeur.java:294-303 | A removal keeps a duplicate-free registry duplicate-free. |
| `Registry.RemoveIdempotent` | lieur/src/com/heig/LieurServeur.java:294-303 | A second corrected removal of the same instance changes nothing. The loop as written lacks this: it takes [s, s] to [s], then to []. |
| `Registry.RemoveAsWritten` | lieur/src/com/heig/LieurServeur.java:294-303 | The index loop as written never invents entries, and every value that does not match still occurs in the result. |
| `Registry.AsWrittenThenRemove` | lieur/src/com/heig/LieurServeur.java:413-420 | The loop as written deletes only matching entries: once the copies it skipped are taken out as well, the result is the corrected removal. So every other entry survives in order and with its multiplicity. |
| `Registry.AsWrittenAtMostOne` | lieur/src/com/heig/LieurServeur.java:413-420 | If at most one entry from i onwards matches, the loop as written removes exactly what a correct removal does. |
| `Registry.AsWrittenAgreesWithoutDuplicates` | lieur/src/com/heig/LieurServeur.java:413-420 | On a duplicate-free registry the loop as written is a correct removal. |
| `Registry.AsWrittenKeepsNoDuplicates` | lieur/src/com/heig/LieurServeur.java:413-420 | The loop as written keeps a duplicate-free registry duplicate-free. |
| `Registry.AsWrittenLeavesAdjacentDuplicate` | lieur/src/com/heig/LieurServeur.java:413-420 | On [s, s] the loop as written leaves [s], while a correct removal leaves nothing. |
| `Registry.MinFrom` | lieur/src/com/heig/LieurServeur.java:240-242 | The `Stream.min` reduction with the linker's comparator (`Registry.Compare`: never used first, then older first) returns the first entry of minimal age with the id, or none if no entry has the id. |
| `Registry.Lru` | lieur/src/com/heig/LieurServeur.java:240-242 | The pick has the requested id. Its last use is the earliest among entries with that id (never used counts as earliest), and every earlier entry with the id was used strictly later. None exactly when no entry has the id. |
| `Registry.Touch` | lieur/src/com/heig/LieurServeur.java:259 | Only the chosen entry changes: it gets the timestamp `now` and keeps its identity. |
| `Bootstrap.Run` | lieur/src/com/heig/LieurServeur.java:129-170 | The first list response decides the registry, and only peers up to that one are asked. A timeout or any other datagram moves on to the next peer. With no answer, all peers are asked and the registry stays empty. |
| `Bootstrap.AttemptsUnanswered` | lieur/src/com/heig/LieurServeur.java:142-148 | If every receive times out or is not a list response, every peer is asked once, in order, and the registry stays empty. |
| `Bootstrap.AttemptsAnswered` | lieur/src/com/heig/LieurServeur.java:153-168 | The first list response ends the loop. The registry is that response decoded, after requests to exactly the peers up to the one it answers. |
| `Bootstrap.CopiesFirstAnsweringPeer` | lieur/src/com/heig/LieurServeur.java:154-168 | If the first answering peer sends its registry (at most 100 entries), the new linker starts with a copy without timestamps. |
| `Linker.LruPickUnique` | lieur/src/com/heig/LieurServeur.java:240-242 | At most one entry satisfies the least-recently-used choice. |
| `Linker.ServeClient` | lieur/src/com/heig/LieurServeur.java:230-274 | Exactly one reply, to the client. It is "no such service" exactly when no entry has the id, and then the registry is untouched. Otherwise the reply carries the least-recently-used entry, and only that entry is stamped `now`. |
| `Linker.AddAnnounced` | lieur/src/com/heig/LieurServeur.java:313-327 | The announced instance is present afterwards. If it was already registered, nothing changes. Otherwise it is appended at the end. No duplicate is created. |
| `Linker.SignedService` | lieur/src/com/heig/LieurServeur.java:315-318 | The service an announcement names under the signed port reading is the same instance as under the unsigned reading exactly when byte 7 is below 0x80. |
| `Linker.AddAnnouncedAsWritten` | lieur/src/com/heig/LieurServeur.java:315-326 | With the signed port reading, the signed-port instance is present afterwards. If it was already registered nothing changes, and otherwise it is appended at the end. A duplicate-free registry stays duplicate-free. The result matches the corrected handler whenever the high port byte is below 0x80. |
| `Linker.RemoveAnnounced` | lieur/src/com/heig/LieurServeur.java:283-304 | No entry for the announced instance remains. Every other entry remains. |
| `Linker.RemoveAnnouncedAsWritten` | lieur/src/com/heig/LieurServeur.java:285-303 | The handler as written only deletes copies of the signed-port instance: every other entry is kept, in order and with its multiplicity. It keeps a duplicate-free registry duplicate-free. On a duplicate-free registry with high port byte below 0x80 it matches the corrected handler. |
| `Linker.Verify` | lieur/src/com/heig/LieurServeur.java:338-398 | The corrected complaint handler. An absent instance: nothing is sent and nothing changes. A present one is probed. An "I exist" reply changes nothing. Otherwise every entry for it is removed, and after the probe each peer gets one removal announcement, in order. |
| `Linker.VerifyAsWritten` | lieur/src/com/heig/LieurServeur.java:407-432 | The complaint handler as written. It sends the same probe and the same `Linker.Broadcast` of the 8-byte `Linker.Announcement` as the corrected one (lines 423-431). Its removal only deletes copies of the instance: every other entry is kept, in order and with its multiplicity. It keeps a duplicate-free registry duplicate-free, and equals the corrected handler on a duplicate-free registry. |
| `Linker.Subscription` | lieur/src/com/heig/LieurServeur.java:443-476 | The sender is appended under the requested id, with the datagram's source address and port, and is marked never used. Earlier entries are kept. Each peer, in order, gets one add announcement (`Linker.Broadcast` of `Linker.Announcement`, lines 456-468), then the sender gets the confirmation. |
| `Linker.ServeClientKeepsNoDuplicates` | lieur/src/com/heig/LieurServeur.java:259 | Stamping the chosen entry keeps a duplicate-free registry duplicate-free. |
| `Linker.ListServices` | lieur/src/com/heig/LieurServeur.java:185-220 | The registry is untouched and one datagram goes back to the asker. A new linker decoding it at bootstrap gets the registry back without timestamps when it holds at most 100 services. |
| `Linker.Step` | lieur/src/com/heig/LieurServeur.java:74-115 | The corrected loop iteration. An unknown tag changes nothing and sends nothing. A list request returns the registry as a list response. The registry grows by at most one entry. Only a subscription can create a duplicate. Main-socket datagrams go only to the sender or to a configured peer. |
| `Linker.StepAsWritten` | lieur/src/com/heig/LieurServeur.java:74-115 | The loop iteration as written. An unknown tag changes nothing and sends nothing. A list request returns the registry. The registry grows by at most one entry. Only a subscription can create a duplicate. Replies go only to the sender or to a peer. Every tag other than add, remove and complaint is handled exactly as in `Linker.Step`. |
| `Linker.AsWrittenAgreesWithStep` | lieur/src/com/heig/LieurServeur.java:74-115 | On a duplicate-free registry, the loop as written and the corrected loop agree, provided an add or remove announcement's high port byte is below 0x80. |
| `ServiceNode.SubscriptionMessage` | serveur/src/com/heig/ServiceServeur.java:53 | The subscription is exactly 2 bytes: the subscribe tag, then the id cast to a byte. |
| `ServiceNode.SubscriptionTo` | serveur/src/com/heig/ServiceServeur.java:52-60 | The subscription goes to the chosen linker. |
| `ServiceNode.AwaitConfirmation` | serveur/src/com/heig/ServiceServeur.java:63-73 | Datagrams other than the confirmation are ignored. The first confirmation ends the wait successfully, and a timeout before it ends the server. If neither happens, it is still waiting. |
| `ServiceNode.Serve` | serveur/src/com/heig/ServiceServeur.java:84-113 | A client request gets a 1000-byte echo: the reply tag, then the request's bytes 1 to 999 (zeros past its end). Anything else gets the one-byte "I exist". Both go to the sender. |
| `ServiceNode.Run` | serveur/src/com/heig/ServiceServeur.java:43-115 | The node subscribes to the chosen linker. An unconfirmed node answers nothing. A confirmed node answers each later request once, to its sender. |
| `Scenarios.SubscriptionHandshake` | lieur/src/com/heig/LieurServeur.java:443-476 | A node's subscription makes the linker register it at its source address. Each peer is told once, and the node gets back the datagram that ends its wait. |
| `Scenarios.SubscribeThenRequest` | lieur/src/com/heig/LieurServeur.java:443-475 | A subscription for id 5 from 10.0.0.9:9000 on an empty linker is registered, announced and confirmed. A client's request for id 5 then returns that instance and stamps it. |
| `Scenarios.DeadServiceIsEvicted` | lieur/src/com/heig/LieurServeur.java:380-390 | With the corrected step, a complaint about a present instance with no "I exist" reply removes it. It sends the probe and then one removal announcement to each peer. On a duplicate-free registry the step as written does the same. |
| `Scenarios.ComplaintAboutUnknownService` | lieur/src/com/heig/LieurServeur.java:353-364 | A complaint about an absent instance sends no probe and changes nothing. |
| `Scenarios.LiveServiceSurvivesComplaint` | lieur/src/com/heig/LieurServeur.java:379-386 | A live service node answers the probe with "I exist", and the registry stays as it was. |
| `Scenarios.AddAnnouncementIdempotent` | lieur/src/com/heig/LieurServeur.java:324-326 | The same add announcement received twice registers the instance once. |
| `Scenarios.BootstrapFailover` | lieur/src/com/heig/LieurServeur.java:142-148 | If peer 1 times out and peer 2 sends its list, the registry is peer 2's list and peer 3 is never asked. |
| `Scenarios.RotationStep` | lieur/src/com/heig/LieurServeur.java:240-259 | In a registry holding only instances of the requested id, in a cyclic age order starting at j, a request picks j. Stamping j moves the cycle on by one. |
| `Scenarios.RotationInTurn` | lieur/src/com/heig/LieurServeur.java:240-259 | In a registry holding only instances of the requested id, from a cyclic age order at j, requests at increasing times pick j, then the next index, and so on. |
| `Scenarios.RotationPicks` | lieur/src/com/heig/LieurServeur.java:240-259 | In a registry holding only instances of the requested id, with increasing request times, request i picks entry (j + i) mod n. |
| `Scenarios.LruRoundRobin` | lieur/src/com/heig/LieurServeur.java:240-259 | In a registry holding only never-used instances of the requested id, requested at increasing times: request i gets instance i mod n. Each is served once before any is served twice. |
| `Scenarios.SignedPortEscapesVerification` | lieur/src/com/heig/LieurServeur.java:317-318 | As written, a peer's add for a port from 32768 up stores a negative port. A complaint about that service then finds nothing and sends no probe. |
| `Scenarios.AnnouncedServiceIsVerifiable` | lieur/src/com/heig/LieurServeur.java:344-347 | With the unsigned reading, a complaint finds any announced service and probes it. |
| `Scenarios.SignedPortIgnoresRemoval` | lieur/src/com/heig/LieurServeur.java:287-288 | As written, a removal announcement for a subscribed service on a port from 32768 up removes nothing. |
| `Scenarios.RemovalAnnouncementRemoves` | lieur/src/com/heig/LieurServeur.java:283-303 | With the unsigned reading, a removal announcement removes the service. |
| `Scenarios.DoubleSubscriptionSurvivesRemoval` | lieur/src/com/heig/LieurServeur.java:451 | Two subscriptions from one node give two entries. The removal loop as written leaves one of them. |
| `Scenarios.DoubleSubscriptionSurvivesComplaint` | lieur/src/com/heig/LieurServeur.java:413-420 | After two subscriptions from one node, a complaint with a timed-out probe leaves one entry in the loop as written, with the same probe and announcements. The corrected loop leaves none. |
| `Scenarios.PaddedListResponseDuplicates` | lieur/src/com/heig/LieurServeur.java:156-163 | A list response with count 2 and no records gives the new linker two identical zero entries, so bootstrap can produce duplicates. |

## Left out

- Sockets, `send`/`receive`, wall-clock timeouts and `setSoTimeout`. Each receive's outcome (a datagram, or a timeout) is an input.
- The verification socket's creation and closing, including a bind failure.
- DNS and `InetAddress` string conversions. Addresses are four bytes. A reply to `getHostName()` goes to the sender's address.
- Console output.
- `Random.nextInt`, which picks the node's linker. The pick is the `choice` input.
- The infinite loops are not modelled as loops. `Linker.Step` is one iteration of the linker loop. `ServiceNode.Run` takes the post-confirmation requests as a list.
- The `Service`, `Lieur`, `Protocole` and `Util` classes are not part of this model.
  - Identity is structural: id, address and port.
  - `utiliser` sets the timestamp to a natural-number clock passed in as `now`.
  - `Lieur` is an `Endpoint`.
  - Tag values are a fixed assignment of distinct bytes (`Wire.CodesDistinct`). Only their distinctness matters, except that an empty datagram reads tag 0.
- `Bytes.PortBytes`: the low-byte-first order of `Util.intToBytes` is an assumption. It is the order every unsigned decoder of the linker reads back. The round trips built on it (`Bytes.PortRoundTrip`, `Wire.RecordRoundTrip`, `Wire.ListRoundTrip`) hold under that assumption.
- `Wire.ListRoundTrip`: stated only for registries of at most 100 entries. Beyond that, bootstrap decoding loses entries or crashes, as `Wire.DecodeList` states.
- `lieur/src/com/heig/LinkerServer.java` is an abandoned draft of the same node and is not part of this model.
- An IOException from a send or receive is not modelled. It ends the process.
- The service node's `idService` is an `int`. Only the byte it sends is modelled.
- `Linker.Step` and `Linker.StepAsWritten`: before dispatching, line 89 prints `Protocole.getByOrdinale(messageType)`. `Protocole` is not part of this model, and the promise that an unknown tag changes nothing and sends nothing assumes that this call returns for every tag byte. If it indexes the enum's values, an unknown or negative tag ends the linker with an exception instead.
- `Linker.Step`: this is the corrected loop iteration. The loop as written is `Linker.StepAsWritten`, and `Linker.AsWrittenAgreesWithStep` says where the two agree.
- `Linker.Verify`: this removes every copy of the instance. The handler as written is `Linker.VerifyAsWritten`, which can leave a copy behind when the registry holds duplicates.
- `Scenarios.LruRoundRobin` and the rotation lemmas (`Scenarios.RotationStep`, `Scenarios.RotationInTurn`, `Scenarios.RotationPicks`) are stated for a registry holding only instances of the requested id. Fairness among one id's instances in a registry that mixes ids is not proved, because the cyclic age order would have to skip the other ids' entries.
- `ServiceNode.SubscriptionTo` and `ServiceNode.Run` require `choice < |linkers|`. The case with no linkers is not modelled: there `rand.nextInt(0)` throws `IllegalArgumentException` (serveur/src/com/heig/ServiceServeur.java:52).

## Findings

| source | as written | input that shows it | evidently intended | confidence | as-written member | corrected member |
|---|---|---|---|---|---|---|
| lieur/src/com/heig/LieurServeur.java:317-318 | `ajoutService` reads the port as `new BigInteger({data[7], data[6]}).intValue()`, which is signed | An add announcement for port 40000 (bytes 0x40, 0x9C) is stored with port -25536. A client's complaint about that service decodes port 40000, finds nothing, and never probes it. | The unsigned little-endian reading of lines 161 and 347 | high (not executed) | `Linker.AddAnnouncedAsWritten`, `Scenarios.SignedPortEscapesVerification` | `Linker.AddAnnounced`, `Scenarios.AnnouncedServiceIsVerifiable` |
| lieur/src/com/heig/LieurServeur.java:287-288 | `suppressionService` uses the same signed reading | A removal announcement for a service subscribed on port 40000 decodes port -25536 and removes nothing. | The unsigned little-endian reading | high (not executed) | `Linker.RemoveAnnouncedAsWritten`, `Scenarios.SignedPortIgnoresRemoval` | `Linker.RemoveAnnounced`, `Scenarios.RemovalAnnouncementRemoves` |
| lieur/src/com/heig/LieurServeur.java:413-420 | `services.remove(i)` inside a loop that then does `i++` skips the entry that moved into slot i (the loop at lines 294-303 is the same) | A registry [s, s], produced by two subscriptions from one node, ends up as [s] after removing s. | Remove every matching entry | medium (not executed) | `Registry.RemoveAsWritten`, `Registry.AsWrittenLeavesAdjacentDuplicate`, `Linker.VerifyAsWritten`, `Linker.StepAsWritten`, `Scenarios.DoubleSubscriptionSurvivesComplaint` | `Registry.Remove`, `Registry.RemoveRemovesAll`, `Registry.RemoveAppend`, `Linker.Verify`, `Linker.Step` |

=== FILE: bootstrap.dfy ===
/**
 * Start-up synchronisation of a linker: ask the configured peers, in order,
 * for their service list and take the first list response that arrives.
 */
module Bootstrap {
  import opened Bytes
  import opened Wire

  /** Where start-up ends: serving with a registry, or dead from a bad count. */
  datatype Boot =
    | Synced(registry: seq<Service>, sent: seq<Datagram>)
    | Crashed(sent: seq<Datagram>)

  /** The one-byte list request sent to a peer from the main socket. */
  function ListRequestTo(peer: Endpoint): Datagram
  {
    Datagram(Main, peer, [Code(ListRequest)])
  }

  /** One list request per peer, in the peers' order. */
  function Requests(peers: seq<Endpoint>): (r: seq<Datagram>)
    ensures |r| == |peers|
    ensures forall i :: 0 <= i < |peers| ==> r[i] == ListRequestTo(peers[i])
  {
    seq(|peers|, i requires 0 <= i < |peers| => ListRequestTo(peers[i]))
  }

  /**
   * A receive that ends the search: a datagram (from anyone) whose first byte
   * in the 702-byte buffer is the list-response tag. A timeout, or any other
   * datagram, sends the linker on to the next peer.
   */
  predicate Answers(r: Received)
  {
    r.Got? && Receive(r.msg.payload, ListBufferSize)[0] == Code(ListResponse)
  }

  /** Attempt `k` is the first one that was answered. */
  predicate FirstAnswer(replies: seq<Received>, k: nat)
  {
    k < |replies| && Answers(replies[k]) && forall j :: 0 <= j < k ==> !Answers(replies[j])
  }

  /** How start-up ends once the answering peer's list has been read. */
  function Adopt(d: ListDecoding, sent: seq<Datagram>): Boot
  {
    match d
    case Decoded(services) => Synced(services, sent)
    case Overrun => Crashed(sent)
  }

  /** The receives after the first are the tail's receives, one index lower. */
  lemma TailOf(replies: seq<Received>)
    requires replies != []
    ensures forall j :: 0 <= j < |replies| - 1 ==> replies[1..][j] == replies[j + 1]
  {
  }

  /** When the first attempt went unanswered, the first answer is the tail's first answer. */
  lemma FirstAnswerInTail(replies: seq<Received>, k: nat)
    requires replies != [] && !Answers(replies[0]) && FirstAnswer(replies, k)
    ensures k > 0 && FirstAnswer(replies[1..], k - 1)
  {
    TailOf(replies);
  }

  /** The requests to the first k + 1 peers: the first peer's, then those to the next k. */
  lemma RequestsPrefix(peers: seq<Endpoint>, k: nat)
    requires 0 < k < |peers|
    ensures Requests(peers[..k + 1]) == [ListRequestTo(peers[0])] + Requests(peers[1..][..k])
  {
    assert peers[1..][..k] == peers[..k + 1][1..];
  }

  /** The request `d` was sent before everything in `b`. */
  function After(d: Datagram, b: Boot): Boot
  {
    match b
    case Synced(registry, sent) => Synced(registry, [d] + sent)
    case Crashed(sent) => Crashed([d] + sent)
  }

  /**
   * The loop of `recupererListeServices`, one peer at a time: send the
   * request, and stop at the first receive that is a list response.
   */
  function Attempts(peers: seq<Endpoint>, replies: seq<Received>): Boot
    requires |replies| == |peers|
    decreases |peers|
  {
    if peers == [] then Synced([], [])
    else if Answers(replies[0]) then Adopt(DecodeList(replies[0].msg.payload), [ListRequestTo(peers[0])])
    else After(ListRequestTo(peers[0]), Attempts(peers[1..], replies[1..]))
  }

  /** With no answer at all, every peer is asked and the registry stays empty. */
  lemma {:induction false} AttemptsUnanswered(peers: seq<Endpoint>, replies: seq<Received>)
    requires |replies| == |peers| && forall j :: 0 <= j < |replies| ==> !Answers(replies[j])
    ensures Attempts(peers, replies) == Synced([], Requests(peers))
    decreases |peers|
  {
    if peers != [] {
      TailOf(replies);
      AttemptsUnanswered(peers[1..], replies[1..]);
      assert Requests(peers) == [ListRequestTo(peers[0])] + Requests(peers[1..]);
    }
  }

  /** The first answer decides, after the requests to the peers up to the one it answers. */
  lemma {:induction false} AttemptsAnswered(peers: seq<Endpoint>, replies: seq<Received>, k: nat)
    requires |replies| == |peers| && FirstAnswer(replies, k)
    ensures Attempts(peers, replies) == Adopt(DecodeList(replies[k].msg.payload), Requests(peers[..k + 1]))
    decreases |peers|
  {
    if k == 0 {
      assert Requests(peers[..1]) == [ListRequestTo(peers[0])];
    } else {
      FirstAnswerInTail(replies, k);
      AttemptsAnswered(peers[1..], replies[1..], k - 1);
      RequestsPrefix(peers, k);
      assert replies[1..][k - 1] == replies[k];
    }
  }

  /**
   * `recupererListeServices`: `replies[i]` is what the receive after the
   * request to `peers[i]` returned. The registry starts empty and receives
   * exactly the decoded records of the first answer; later peers are never
   * asked; when nobody answers, the registry stays empty.
   */
  function Run(peers: seq<Endpoint>, replies: seq<Received>): (b: Boot)
    requires |replies| == |peers|
    ensures (forall j :: 0 <= j < |replies| ==> !Answers(replies[j])) ==> b == Synced([], Requests(peers))
    ensures forall k: nat :: FirstAnswer(replies, k) ==>
      b == Adopt(DecodeList(replies[k].msg.payload), Requests(peers[..k + 1]))
  {
    assert (forall j :: 0 <= j < |replies| ==> !Answers(replies[j])) ==>
      Attempts(peers, replies) == Synced([], Requests(peers)) by {
      if forall j :: 0 <= j < |replies| ==> !Answers(replies[j]) {
        AttemptsUnanswered(peers, replies);
      }
    }
    assert forall k: nat :: FirstAnswer(replies, k) ==>
      Attempts(peers, replies) == Adopt(DecodeList(replies[k].msg.payload), Requests(peers[..k + 1])) by {
      forall k: nat | FirstAnswer(replies, k)
        ensures Attempts(peers, replies) == Adopt(DecodeList(replies[k].msg.payload), Requests(peers[..k + 1]))
      {
        AttemptsAnswered(peers, replies, k);
      }
    }
    Attempts(peers, replies)
  }

  /**
   * When the first peer to answer sends its registry as a list response of at
   * most 100 entries, the new linker starts with a copy of that registry,
   * timestamps dropped, having asked exactly the peers up to that one.
   */
  lemma CopiesFirstAnsweringPeer(peers: seq<Endpoint>, replies: seq<Received>, k: nat, theirs: seq<Service>)
    requires |replies| == |peers|
    requires |theirs| <= 100 && forall i :: 0 <= i < |theirs| ==> ValidPort(theirs[i])
    requires k < |replies| && replies[k].Got? && replies[k].msg.payload == EncodeList(theirs)
    requires forall j :: 0 <= j < k ==> !Answers(replies[j])
    ensures Run(peers, replies) == Synced(ForgetAll(theirs), Requests(peers[..k + 1]))
  {
    var e := EncodeList(theirs);
    assert Receive(e, ListBufferSize)[0] == e[0];
    assert FirstAnswer(replies, k);
    ListRoundTrip(theirs);
  }
}

=== FILE: bytes.dfy ===
/** Small shared datatypes. */
module Wrappers {

  /** An optional value, used where the Java code has a nullable reference. */
  datatype Option<+T> = None | Some(value: T)
}

/**
 * Bytes as the linker and the service node see them: Java `byte`s on the wire,
 * receive buffers of a fixed size, and the two-byte port encodings.
 */
module Bytes {

  /** One byte on the wire, as its unsigned value. */
  type byte = x: int | 0 <= x < 0x100

  /** An unsigned 16-bit value, the range of a UDP port. */
  type uint16 = x: int | 0 <= x < 0x1_0000

  /** Java's narrowing cast `(byte) x`: the low eight bits of `x`. */
  function ToByte(x: int): (b: byte)
    ensures 0 <= x < 0x100 ==> b == x
    ensures (x - b) % 0x100 == 0
  {
    x % 0x100
  }

  /** Java's widening of a `byte` to `int`, which extends the sign bit. */
  function Signed(b: byte): (v: int)
    ensures -0x80 <= v < 0x80
    ensures ToByte(v) == b
    ensures b < 0x80 <==> v == b
  {
    if b < 0x80 then b else b - 0x100
  }

  /**
   * The contents of a freshly allocated `n`-byte buffer after one datagram
   * with payload `p` has been received into it: a longer datagram is cut
   * at `n` bytes, a shorter one leaves the rest of the buffer zero.
   */
  function Receive(p: seq<byte>, n: nat): (buf: seq<byte>)
    ensures |buf| == n
    ensures forall i :: 0 <= i < n ==> buf[i] == if i < |p| then p[i] else 0
  {
    if |p| >= n then p[..n] else p + seq(n - |p|, _ => 0)
  }

  /**
   * `Util.intToBytes(port, 2)`: the two bytes of a port, low byte first.
   * That helper is not part of this model; its byte order is taken to be
   * the one every unsigned decoder of the linker reads back.
   */
  function PortBytes(p: int): (r: seq<byte>)
    ensures |r| == 2
    ensures r[0] == ToByte(p)
    ensures r[1] == ToByte(p / 0x100)
  {
    [p % 0x100, p / 0x100 % 0x100]
  }

  /** The linker's unsigned decoding `((hi & 0xff) << 8) | (lo & 0xff)`. */
  function DecodePort(lo: byte, hi: byte): (p: uint16)
    ensures PortBytes(p) == [lo, hi]
  {
    hi * 0x100 + lo
  }

  /**
   * `new BigInteger(new byte[]{hi, lo}).intValue()`, the decoding used by the
   * add and remove announcements: the same two bytes read as a signed
   * big-endian number. It agrees with `DecodePort` exactly when the high byte
   * is below 0x80.
   */
  function DecodePortSigned(lo: byte, hi: byte): (p: int)
    ensures -0x8000 <= p < 0x8000
    ensures p == DecodePort(lo, hi) <==> hi < 0x80
    ensures PortBytes(p) == [lo, hi]
  {
    if hi < 0x80 then DecodePort(lo, hi)
    else
      var p := DecodePort(lo, hi) - 0x1_0000;
      assert p == (hi - 0x100) * 0x100 + lo;
      assert p / 0x100 == hi - 0x100;
      p
  }

  /** Encoding a port and decoding it again gives the port back. */
  lemma PortRoundTrip(p: uint16)
    ensures DecodePort(PortBytes(p)[0], PortBytes(p)[1]) == p
  {
  }
}

=== FILE: linker.dfy ===
/**
 * The linker's request handling (`LieurServeur`): one step of its receive
 * loop takes the registry and one inbound datagram to a new registry and the
 * datagrams sent in response. The socket is abstracted away: what a receive
 * returns is an input, and what is sent is part of the result.
 */
module Linker {
  import opened Wrappers
  import opened Bytes
  import opened Wire
  import opened Registry

  /** Size of the buffer every ordinary request is received into. */
  const RequestBufferSize: nat := 100

  /** Size of the buffer a probe reply is received into. */
  const ProbeBufferSize: nat := 1

  /** The registry after handling one request, and what was sent meanwhile, in order. */
  datatype Outcome = Outcome(registry: seq<Service>, sent: seq<Datagram>)

  /** The same payload to every configured peer, from the main socket, in the peers' order. */
  function Broadcast(peers: seq<Endpoint>, payload: seq<byte>): (r: seq<Datagram>)
    ensures |r| == |peers|
    ensures forall i :: 0 <= i < |peers| ==> r[i] == Datagram(Main, peers[i], payload)
  {
    seq(|peers|, i requires 0 <= i < |peers| => Datagram(Main, peers[i], payload))
  }

  /** An 8-byte message about one service: the tag, then the service's record. */
  function Announcement(k: Kind, s: Service): (m: seq<byte>)
    ensures |m| == 8 && m[0] == Code(k) && m[1..] == EncodeRecord(s)
  {
    [Code(k)] + EncodeRecord(s)
  }

  /** The service named by bytes 1 to 7 of a request, port read unsigned little-endian. */
  function NamedService(buf: seq<byte>): Service
    requires |buf| == RequestBufferSize
  {
    DecodeRecord(buf, 1)
  }

  /**
   * `envoiListeServices`: the whole registry, as a list response, back to the
   * asker. The registry is untouched, and a new linker reading the response
   * at bootstrap gets this registry back, without timestamps, as long as it
   * holds at most 100 services.
   */
  function ListServices(reg: seq<Service>, from: Endpoint): (o: Outcome)
    ensures o.registry == reg
    ensures |o.sent| == 1 && o.sent[0].via == Main && o.sent[0].to == from
    ensures |reg| <= 100 && (forall i :: 0 <= i < |reg| ==> ValidPort(reg[i])) ==>
      DecodeList(o.sent[0].payload) == Decoded(ForgetAll(reg))
  {
    var m := EncodeList(reg);
    assert |reg| <= 100 && (forall i :: 0 <= i < |reg| ==> ValidPort(reg[i])) ==> DecodeList(m) == Decoded(ForgetAll(reg)) by {
      if |reg| <= 100 && (forall i :: 0 <= i < |reg| ==> ValidPort(reg[i])) {
        ListRoundTrip(reg);
      }
    }
    Outcome(reg, [Datagram(Main, from, m)])
  }

  /** Two least-recently-used picks for the same id are the same entry. */
  lemma LruPickUnique(reg: seq<Service>, id: byte, k: nat, k': nat)
    requires IsLruPick(reg, id, k) && IsLruPick(reg, id, k')
    ensures k == k'
  {
  }

  /** Once one pick is known, every pick is that one. */
  lemma LruPickIsUnique(reg: seq<Service>, id: byte, k: nat)
    requires IsLruPick(reg, id, k)
    ensures forall k': nat :: IsLruPick(reg, id, k') ==> k' == k
  {
    forall k': nat | IsLruPick(reg, id, k')
      ensures k' == k
    {
      LruPickUnique(reg, id, k, k');
    }
  }

  /**
   * `envoiServiceAuClient`: one reply to the client. When no entry has the
   * requested id (in particular when the registry is empty) it is the
   * one-byte "no such service" and the registry is untouched; otherwise it
   * carries the least recently used entry with that id, which is then marked
   * as used at `now`.
   */
  function ServeClient(reg: seq<Service>, from: Endpoint, id: byte, now: nat): (o: Outcome)
    ensures |o.sent| == 1 && o.sent[0].via == Main && o.sent[0].to == from
    ensures (forall j :: 0 <= j < |reg| ==> reg[j].id != id) <==> o.sent[0].payload == [Code(NoSuchService)]
    ensures (forall j :: 0 <= j < |reg| ==> reg[j].id != id) ==> o.registry == reg
    ensures forall k: nat :: IsLruPick(reg, id, k) ==>
      o.registry == Touch(reg, k, now) && o.sent[0].payload == Announcement(ServiceResponse, reg[k])
  {
    var notFound := Outcome(reg, [Datagram(Main, from, [Code(NoSuchService)])]);
    if reg != [] then
      match Lru(reg, id)
      case None => notFound
      case Some(k) =>
        LruPickIsUnique(reg, id, k);
        Outcome(Touch(reg, k, now), [Datagram(Main, from, Announcement(ServiceResponse, reg[k]))])
    else notFound
  }

  /** `ajoutService`: add the announced service unless it is already registered. */
  function AddAnnounced(reg: seq<Service>, buf: seq<byte>): (r: seq<Service>)
    requires |buf| == RequestBufferSize
    ensures Contains(r, NamedService(buf))
    ensures |reg| <= |r| <= |reg| + 1 && r[..|reg|] == reg
    ensures Contains(reg, NamedService(buf)) ==> r == reg
    ensures !Contains(reg, NamedService(buf)) ==> r == reg + [NamedService(buf)]
    ensures NoDuplicates(reg) ==> NoDuplicates(r)
  {
    var s := NamedService(buf);
    var r := Add(reg, s);
    assert !Contains(reg, s) ==> r == reg + [s] by {
      if !Contains(reg, s) {
        assert r == r[..|reg|] + [r[|reg|]];
      }
    }
    r
  }

  /**
   * The service named by bytes 1 to 7 of an announcement as `ajoutService`
   * and `suppressionService` read it: the same two port bytes, byte 7 high,
   * taken as a signed number, so negative for any port from 32768 up.
   */
  function SignedService(buf: seq<byte>): (t: Service)
    requires |buf| == RequestBufferSize
    ensures Same(t, NamedService(buf)) <==> buf[7] < 0x80
  {
    NamedService(buf).(port := DecodePortSigned(buf[6], buf[7]))
  }

  /** `ajoutService` as written: add the signed-port service unless it is already registered. */
  function AddAnnouncedAsWritten(reg: seq<Service>, buf: seq<byte>): (r: seq<Service>)
    requires |buf| == RequestBufferSize
    ensures Contains(r, SignedService(buf))
    ensures |reg| <= |r| <= |reg| + 1 && r[..|reg|] == reg
    ensures Contains(reg, SignedService(buf)) ==> r == reg
    ensures !Contains(reg, SignedService(buf)) ==> r == reg + [SignedService(buf)]
    ensures NoDuplicates(reg) ==> NoDuplicates(r)
    ensures buf[7] < 0x80 ==> r == AddAnnounced(reg, buf)
  {
    var t := SignedService(buf);
    var r := Add(reg, t);
    assert !Contains(reg, t) ==> r == reg + [t] by {
      if !Contains(reg, t) {
        assert r == r[..|reg|] + [r[|reg|]];
      }
    }
    r
  }

  /** `suppressionService`: remove the announced service (every matching entry). */
  function RemoveAnnounced(reg: seq<Service>, buf: seq<byte>): (r: seq<Service>)
    requires |buf| == RequestBufferSize
    ensures !Contains(r, NamedService(buf))
    ensures forall x :: x in r <==> x in reg && !Same(x, NamedService(buf))
  {
    RemoveRemovesAll(reg, NamedService(buf));
    Remove(reg, NamedService(buf))
  }

  /**
   * `suppressionService` as written: the signed port decoding, and the
   * removal loop that skips the entry after each one it deletes.
   */
  function RemoveAnnouncedAsWritten(reg: seq<Service>, buf: seq<byte>): (r: seq<Service>)
    requires |buf| == RequestBufferSize
    ensures forall x :: x in r ==> x in reg
    ensures Remove(r, SignedService(buf)) == Remove(reg, SignedService(buf))
    ensures |r| <= |reg|
    ensures NoDuplicates(reg) ==> NoDuplicates(r)
    ensures buf[7] < 0x80 && NoDuplicates(reg) ==> r == RemoveAnnounced(reg, buf)
  {
    var s := SignedService(buf);
    var r := RemoveAsWritten(reg, s, 0);
    AsWrittenThenRemove(reg, s, 0);
    assert NoDuplicates(reg) ==> NoDuplicates(r) by {
      if NoDuplicates(reg) {
        AsWrittenKeepsNoDuplicates(reg, s);
      }
    }
    assert buf[7] < 0x80 && NoDuplicates(reg) ==> r == RemoveAnnounced(reg, buf) by {
      if buf[7] < 0x80 && NoDuplicates(reg) {
        AsWrittenAgreesWithoutDuplicates(reg, NamedService(buf));
      }
    }
    r
  }

  /** The one-byte probe sent from the verification socket to a suspect service. */
  function ProbeTo(s: Service): Datagram
    requires ValidPort(s)
  {
    Datagram(Verification, Endpoint(s.ip, s.port), [Code(Probe)])
  }

  /**
   * The probe's answer keeps the service: some datagram arrived in time and
   * its first byte, in a one-byte buffer, is "I exist".
   */
  predicate ConfirmsLife(reply: Received)
  {
    reply.Got? && Receive(reply.msg.payload, ProbeBufferSize)[0] == Code(IExist)
  }

  /**
   * `verifServiceExiste` with `suppressionServiceEtNotificationLieurs`: a
   * complaint about a service the registry does not hold does nothing. A held
   * service is probed; unless the reply confirms it, every entry for it is
   * removed and each peer gets one removal announcement.
   */
  function Verify(reg: seq<Service>, peers: seq<Endpoint>, buf: seq<byte>, reply: Received): (o: Outcome)
    requires |buf| == RequestBufferSize
    ensures var s := NamedService(buf);
      && (!Contains(reg, s) ==> o == Outcome(reg, []))
      && (Contains(reg, s) ==> |o.sent| >= 1 && o.sent[0] == ProbeTo(s))
      && (Contains(reg, s) && ConfirmsLife(reply) ==> o == Outcome(reg, [ProbeTo(s)]))
      && (Contains(reg, s) && !ConfirmsLife(reply) ==>
            && !Contains(o.registry, s)
            && (forall x :: x in o.registry <==> x in reg && !Same(x, s))
            && o.sent == [ProbeTo(s)] + Broadcast(peers, Announcement(RemoveService, s)))
  {
    var s := NamedService(buf);
    if !Contains(reg, s) then Outcome(reg, [])
    else if ConfirmsLife(reply) then Outcome(reg, [ProbeTo(s)])
    else
      RemoveRemovesAll(reg, s);
      Outcome(Remove(reg, s), [ProbeTo(s)] + Broadcast(peers, Announcement(RemoveService, s)))
  }

  /**
   * `verifServiceExiste` as written: the same probe, but the removal goes
   * through the loop of `suppressionServiceEtNotificationLieurs`, which skips
   * the entry after each one it deletes. On a registry without duplicates it
   * is `Verify`; on [s, s] it leaves one copy of `s`.
   */
  function VerifyAsWritten(reg: seq<Service>, peers: seq<Endpoint>, buf: seq<byte>, reply: Received): (o: Outcome)
    requires |buf| == RequestBufferSize
    ensures var s := NamedService(buf);
      && (!Contains(reg, s) ==> o == Outcome(reg, []))
      && (Contains(reg, s) ==> |o.sent| >= 1 && o.sent[0] == ProbeTo(s))
      && (Contains(reg, s) && ConfirmsLife(reply) ==> o == Outcome(reg, [ProbeTo(s)]))
      && (Contains(reg, s) && !ConfirmsLife(reply) ==>
            && (forall x :: x in o.registry ==> x in reg)
            && (forall x :: x in reg && !Same(x, s) ==> x in o.registry)
            && Remove(o.registry, s) == Remove(reg, s)
            && o.sent == [ProbeTo(s)] + Broadcast(peers, Announcement(RemoveService, s)))
    ensures |o.registry| <= |reg|
    ensures NoDuplicates(reg) ==> NoDuplicates(o.registry)
    ensures NoDuplicates(reg) ==> o == Verify(reg, peers, buf, reply)
  {
    var s := NamedService(buf);
    if !Contains(reg, s) then Outcome(reg, [])
    else if ConfirmsLife(reply) then Outcome(reg, [ProbeTo(s)])
    else
      var r := RemoveAsWritten(reg, s, 0);
      AsWrittenThenRemove(reg, s, 0);
      assert NoDuplicates(reg) ==> r == Remove(reg, s) && NoDuplicates(r) by {
        if NoDuplicates(reg) {
          AsWrittenAgreesWithoutDuplicates(reg, s);
          AsWrittenKeepsNoDuplicates(reg, s);
        }
      }
      Outcome(r, [ProbeTo(s)] + Broadcast(peers, Announcement(RemoveService, s)))
  }

  /**
   * `souscriptionService`: the service is the sender of the datagram, with
   * the id in byte 1. It is appended (without a membership test), announced
   * to every peer, and then confirmed to the sender.
   */
  function Subscription(reg: seq<Service>, peers: seq<Endpoint>, from: Endpoint, id: byte): (o: Outcome)
    ensures |o.registry| == |reg| + 1
    ensures o.registry[..|reg|] == reg
    ensures o.registry[|reg|] == Service(id, from.ip, from.port, None)
    ensures o.registry[|reg|].lastUsed == None
    ensures |o.sent| == |peers| + 1
    ensures forall i :: 0 <= i < |peers| ==>
      o.sent[i] == Datagram(Main, peers[i], Announcement(AddService, Service(id, from.ip, from.port, None)))
    ensures o.sent[|peers|] == Datagram(Main, from, [Code(SubscribeConfirm)])
  {
    var s := Service(id, from.ip, from.port, None);
    Outcome(reg + [s], Broadcast(peers, Announcement(AddService, s)) + [Datagram(Main, from, [Code(SubscribeConfirm)])])
  }

  /** The tags the dispatcher acts on. */
  predicate Handled(tag: byte)
  {
    tag in {Code(ListRequest), Code(ServiceRequest), Code(AddService),
            Code(RemoveService), Code(NoSuchService), Code(Subscribe)}
  }

  /** Every main-socket datagram goes back to the sender or to a configured peer. */
  predicate RepliesStayLocal(sent: seq<Datagram>, from: Endpoint, peers: seq<Endpoint>)
  {
    forall i :: 0 <= i < |sent| && sent[i].via == Main ==> sent[i].to == from || sent[i].to in peers
  }

  /** Touching an entry does not change which instances the registry holds. */
  lemma TouchKeepsNoDuplicates(reg: seq<Service>, k: nat, now: nat)
    requires k < |reg| && NoDuplicates(reg)
    ensures NoDuplicates(Touch(reg, k, now))
  {
    var r := Touch(reg, k, now);
    forall i, j | 0 <= i < j < |r|
      ensures !Same(r[i], r[j])
    {
      assert Same(r[i], reg[i]) && Same(r[j], reg[j]);
    }
  }

  /** Serving a client only refreshes a timestamp, so it keeps the registry free of duplicates. */
  lemma ServeClientKeepsNoDuplicates(reg: seq<Service>, from: Endpoint, id: byte, now: nat)
    ensures NoDuplicates(reg) ==> NoDuplicates(ServeClient(reg, from, id, now).registry)
  {
    if NoDuplicates(reg) {
      match Lru(reg, id)
      case None =>
      case Some(k) => TouchKeepsNoDuplicates(reg, k, now);
    }
  }

  /**
   * One iteration of the receive loop of `demarrer` with the linker's three
   * defects corrected: the announcements' ports read unsigned, and removals
   * that delete every matching entry. The datagram is read into a fresh
   * 100-byte buffer and routed on its first byte. `reply` is what the probe
   * of a complaint would receive; `now` is the clock. Unknown tags are
   * ignored. Only a subscription can create a duplicate entry, every path
   * grows the registry by at most one entry, and main-socket traffic goes
   * only to the sender or to peers. `StepAsWritten` is the loop as written.
   */
  function Step(reg: seq<Service>, peers: seq<Endpoint>, msg: Inbound, reply: Received, now: nat): (o: Outcome)
    ensures !Handled(Receive(msg.payload, RequestBufferSize)[0]) ==> o == Outcome(reg, [])
    ensures Receive(msg.payload, RequestBufferSize)[0] == Code(ListRequest) ==>
      o == Outcome(reg, [Datagram(Main, msg.from, EncodeList(reg))])
    ensures |o.registry| <= |reg| + 1
    ensures Receive(msg.payload, RequestBufferSize)[0] != Code(Subscribe) && NoDuplicates(reg) ==> NoDuplicates(o.registry)
    ensures RepliesStayLocal(o.sent, msg.from, peers)
  {
    var buf := Receive(msg.payload, RequestBufferSize);
    var tag := buf[0];
    if tag == Code(ListRequest) then ListServices(reg, msg.from)
    else if tag == Code(ServiceRequest) then
      ServeClientKeepsNoDuplicates(reg, msg.from, buf[1], now);
      ServeClient(reg, msg.from, buf[1], now)
    else if tag == Code(AddService) then Outcome(AddAnnounced(reg, buf), [])
    else if tag == Code(RemoveService) || tag == Code(NoSuchService) then
      assert NoDuplicates(reg) ==> NoDuplicates(Remove(reg, NamedService(buf))) by {
        if NoDuplicates(reg) {
          RemoveKeepsNoDuplicates(reg, NamedService(buf));
        }
      }
      if tag == Code(RemoveService) then Outcome(RemoveAnnounced(reg, buf), [])
      else Verify(reg, peers, buf, reply)
    else if tag == Code(Subscribe) then Subscription(reg, peers, msg.from, buf[1])
    else Outcome(reg, [])
  }

  /** The tags whose handlers as written differ from the corrected ones. */
  predicate Defective(tag: byte)
  {
    tag in {Code(AddService), Code(RemoveService), Code(NoSuchService)}
  }

  /**
   * One iteration of the receive loop of `demarrer` as written: add and
   * remove announcements read the port signed, and both removal loops skip
   * the entry after each deletion. It is `Step` on every other tag, and on
   * these too when the registry has no duplicates and the port's high byte
   * (byte 7) is below 0x80 (`AsWrittenAgreesWithStep`).
   */
  function StepAsWritten(reg: seq<Service>, peers: seq<Endpoint>, msg: Inbound, reply: Received, now: nat): (o: Outcome)
    ensures !Handled(Receive(msg.payload, RequestBufferSize)[0]) ==> o == Outcome(reg, [])
    ensures Receive(msg.payload, RequestBufferSize)[0] == Code(ListRequest) ==>
      o == Outcome(reg, [Datagram(Main, msg.from, EncodeList(reg))])
    ensures |o.registry| <= |reg| + 1
    ensures Receive(msg.payload, RequestBufferSize)[0] != Code(Subscribe) && NoDuplicates(reg) ==> NoDuplicates(o.registry)
    ensures RepliesStayLocal(o.sent, msg.from, peers)
    ensures !Defective(Receive(msg.payload, RequestBufferSize)[0]) ==> o == Step(reg, peers, msg, reply, now)
  {
    var buf := Receive(msg.payload, RequestBufferSize);
    var tag := buf[0];
    if tag == Code(AddService) then Outcome(AddAnnouncedAsWritten(reg, buf), [])
    else if tag == Code(RemoveService) then Outcome(RemoveAnnouncedAsWritten(reg, buf), [])
    else if tag == Code(NoSuchService) then VerifyAsWritten(reg, peers, buf, reply)
    else Step(reg, peers, msg, reply, now)
  }

  /**
   * Without duplicate entries, and with an announced port below 32768, the
   * linker as written does what the corrected one does. A complaint's port
   * is read unsigned in both, so any port will do there.
   */
  lemma AsWrittenAgreesWithStep(reg: seq<Service>, peers: seq<Endpoint>, msg: Inbound, reply: Received, now: nat)
    requires NoDuplicates(reg)
    requires var tag := Receive(msg.payload, RequestBufferSize)[0];
      tag == Code(AddService) || tag == Code(RemoveService) ==> Receive(msg.payload, RequestBufferSize)[7] < 0x80
    ensures StepAsWritten(reg, peers, msg, reply, now) == Step(reg, peers, msg, reply, now)
  {
    var tag := Receive(msg.payload, RequestBufferSize)[0];
    if tag == Code(AddService) {
      AddAgrees(reg, peers, msg, reply, now);
    } else if tag == Code(RemoveService) {
      RemovalAgrees(reg, peers, msg, reply, now);
    } else if tag == Code(NoSuchService) {
      ComplaintAgrees(reg, peers, msg, reply, now);
    }
  }

  /** An add announcement with a port below 32768 is handled alike as written and corrected. */
  lemma AddAgrees(reg: seq<Service>, peers: seq<Endpoint>, msg: Inbound, reply: Received, now: nat)
    requires Receive(msg.payload, RequestBufferSize)[0] == Code(AddService)
    requires Receive(msg.payload, RequestBufferSize)[7] < 0x80
    ensures StepAsWritten(reg, peers, msg, reply, now) == Step(reg, peers, msg, reply, now)
  {
    var buf := Receive(msg.payload, RequestBufferSize);
    assert Step(reg, peers, msg, reply, now) == Outcome(AddAnnounced(reg, buf), []);
  }

  /** A removal announcement with a port below 32768 is handled alike on a duplicate-free registry. */
  lemma RemovalAgrees(reg: seq<Service>, peers: seq<Endpoint>, msg: Inbound, reply: Received, now: nat)
    requires NoDuplicates(reg)
    requires Receive(msg.payload, RequestBufferSize)[0] == Code(RemoveService)
    requires Receive(msg.payload, RequestBufferSize)[7] < 0x80
    ensures StepAsWritten(reg, peers, msg, reply, now) == Step(reg, peers, msg, reply, now)
  {
    var buf := Receive(msg.payload, RequestBufferSize);
    assert Step(reg, peers, msg, reply, now) == Outcome(RemoveAnnounced(reg, buf), []);
  }

  /** A complaint is handled alike on a duplicate-free registry. */
  lemma ComplaintAgrees(reg: seq<Service>, peers: seq<Endpoint>, msg: Inbound, reply: Received, now: nat)
    requires NoDuplicates(reg)
    requires Receive(msg.payload, RequestBufferSize)[0] == Code(NoSuchService)
    ensures StepAsWritten(reg, peers, msg, reply, now) == Step(reg, peers, msg, reply, now)
  {
    var buf := Receive(msg.payload, RequestBufferSize);
    assert Step(reg, peers, msg, reply, now) == Verify(reg, peers, buf, reply);
  }
}

=== FILE: registry.dfy ===
/**
 * The linker's service registry: an ordered list of service instances with
 * structural membership, the add and remove rules, and the least-recently
 * used choice among the instances of one service id.
 */
module Registry {
  import opened Wrappers
  import opened Bytes
  import opened Wire

  /** Some entry of `reg` is the same instance as `s`. */
  predicate Contains(reg: seq<Service>, s: Service)
  {
    exists i :: 0 <= i < |reg| && Same(reg[i], s)
  }

  /** No instance is registered twice. */
  predicate NoDuplicates(reg: seq<Service>)
  {
    forall i, j :: 0 <= i < j < |reg| ==> !Same(reg[i], reg[j])
  }

  /**
   * Add from a peer's announcement: append `s` unless the same instance is
   * already registered.
   */
  function Add(reg: seq<Service>, s: Service): (r: seq<Service>)
    ensures Contains(r, s)
    ensures |r| == if Contains(reg, s) then |reg| else |reg| + 1
    ensures r[..|reg|] == reg
    ensures Contains(reg, s) ==> r == reg
    ensures !Contains(reg, s) ==> r[|reg|] == s
    ensures NoDuplicates(reg) ==> NoDuplicates(r)
  {
    if Contains(reg, s) then reg
    else
      var r := reg + [s];
      assert Same(r[|reg|], s);
      r
  }

  /** Adding the same instance twice leaves one entry, as adding it once does. */
  lemma AddIdempotent(reg: seq<Service>, s: Service)
    ensures Add(Add(reg, s), s) == Add(reg, s)
  {
  }

  /**
   * Removal of every entry that is the same instance as `s`, the other entries
   * keeping their order. This is what the removal loops of the linker are
   * meant to do; `RemoveAsWritten` is what they do.
   */
  function Remove(reg: seq<Service>, s: Service): (r: seq<Service>)
    ensures forall x :: x in r <==> x in reg && !Same(x, s)
    ensures |r| <= |reg|
    ensures !Contains(reg, s) ==> r == reg
  {
    if reg == [] then []
    else
      var rest := Remove(reg[1..], s);
      if Same(reg[0], s) then
        assert !Contains(reg[1..], s) ==> Contains(reg, s);
        rest
      else
        var r := [reg[0]] + rest;
        assert forall x :: x in r <==> x == reg[0] || x in rest;
        assert !Contains(reg[1..], s) ==> rest == reg[1..] && r == reg;
        r
  }

  /** A single entry is dropped exactly when it is the removed instance. */
  lemma RemoveSingleton(x: Service, s: Service)
    ensures Remove([x], s) == if Same(x, s) then [] else [x]
  {
    assert [x][1..] == [];
  }

  /** Concatenation regroups freely. */
  lemma SeqAssociative(x: seq<Service>, y: seq<Service>, z: seq<Service>)
    ensures x + (y + z) == (x + y) + z
  {
  }

  /** Removal looks at the first entry, then removes from the rest. */
  lemma RemoveHead(reg: seq<Service>, s: Service)
    requires reg != []
    ensures Remove(reg, s) == (if Same(reg[0], s) then [] else [reg[0]]) + Remove(reg[1..], s)
  {
  }

  /**
   * Removal works piecewise, so together with `RemoveSingleton` it fixes the
   * result completely: the kept entries stay in their order, every copy of
   * each kept.
   */
  lemma {:induction false} RemoveAppend(a: seq<Service>, b: seq<Service>, s: Service)
    ensures Remove(a + b, s) == Remove(a, s) + Remove(b, s)
    decreases |a|
  {
    if a == [] {
      assert a + b == b;
    } else {
      var h := if Same(a[0], s) then [] else [a[0]];
      assert Remove(a + b, s) == h + Remove(a[1..] + b, s) by {
        assert (a + b)[1..] == a[1..] + b;
        assert (a + b)[0] == a[0];
        RemoveHead(a + b, s);
      }
      assert Remove(a, s) == h + Remove(a[1..], s) by {
        RemoveHead(a, s);
      }
      RemoveAppend(a[1..], b, s);
      SeqAssociative(h, Remove(a[1..], s), Remove(b, s));
    }
  }

  /** Every other instance keeps all its copies. */
  lemma {:induction false} RemoveKeepsCopies(reg: seq<Service>, s: Service)
    ensures forall x :: !Same(x, s) ==> multiset(Remove(reg, s))[x] == multiset(reg)[x]
    decreases |reg|
  {
    if reg != [] {
      RemoveKeepsCopies(reg[1..], s);
      assert reg == [reg[0]] + reg[1..];
      assert multiset(reg) == multiset([reg[0]]) + multiset(reg[1..]);
      if !Same(reg[0], s) {
        assert Remove(reg, s) == [reg[0]] + Remove(reg[1..], s);
        assert multiset(Remove(reg, s)) == multiset([reg[0]]) + multiset(Remove(reg[1..], s));
      }
    }
  }

  /** After a removal no entry is the removed instance. */
  lemma RemoveRemovesAll(reg: seq<Service>, s: Service)
    ensures !Contains(Remove(reg, s), s)
  {
    var r := Remove(reg, s);
    forall j | 0 <= j < |r|
      ensures !Same(r[j], s)
    {
      assert r[j] in r;
    }
  }

  /** Removal keeps a registry free of duplicates. */
  lemma {:induction false} RemoveKeepsNoDuplicates(reg: seq<Service>, s: Service)
    requires NoDuplicates(reg)
    ensures NoDuplicates(Remove(reg, s))
  {
    if reg != [] {
      var rest := Remove(reg[1..], s);
      assert NoDuplicates(reg[1..]) by {
        forall i, j | 0 <= i < j < |reg| - 1
          ensures !Same(reg[1..][i], reg[1..][j])
        {
          assert reg[1..][i] == reg[i + 1] && reg[1..][j] == reg[j + 1];
        }
      }
      RemoveKeepsNoDuplicates(reg[1..], s);
      if !Same(reg[0], s) {
        var r := [reg[0]] + rest;
        forall i, j | 0 <= i < j < |r|
          ensures !Same(r[i], r[j])
        {
          assert r[j] == rest[j - 1] && rest[j - 1] in reg[1..];
          if i > 0 {
            assert r[i] == rest[i - 1];
          } else {
            var k :| 0 <= k < |reg[1..]| && reg[1..][k] == r[j];
            assert reg[k + 1] == r[j];
          }
        }
      }
    }
  }

  /** Removing twice is removing once. */
  lemma RemoveIdempotent(reg: seq<Service>, s: Service)
    ensures Remove(Remove(reg, s), s) == Remove(reg, s)
  {
  }

  /**
   * The removal loop as written in the linker: walking indices upwards and
   * deleting the entry at `i` when it matches, then moving on to `i + 1`,
   * which skips the entry that slid into position `i`.
   */
  function RemoveAsWritten(reg: seq<Service>, s: Service, i: nat): (r: seq<Service>)
    ensures forall x :: x in r ==> x in reg
    ensures forall x :: x in reg && !Same(x, s) ==> x in r
    ensures |r| <= |reg|
    decreases |reg| - i
  {
    if i >= |reg| then reg
    else if Same(reg[i], s) then
      var reg' := reg[..i] + reg[i + 1..];
      assert forall x :: (x in reg' ==> x in reg) && (x in reg && !Same(x, s) ==> x in reg') by {
        assert reg == reg[..i] + [reg[i]] + reg[i + 1..];
      }
      RemoveAsWritten(reg', s, i + 1)
    else
      RemoveAsWritten(reg, s, i + 1)
  }

  /** No entry at or after index `i` matches `s`. */
  predicate NoMatchFrom(reg: seq<Service>, s: Service, i: nat)
  {
    forall j :: i <= j < |reg| ==> !Same(reg[j], s)
  }

  /** With nothing left to match, the loop as written changes nothing. */
  lemma {:induction false} AsWrittenNoMatch(reg: seq<Service>, s: Service, i: nat)
    requires NoMatchFrom(reg, s, i)
    ensures RemoveAsWritten(reg, s, i) == reg
    decreases |reg| - i
  {
    if i < |reg| {
      AsWrittenNoMatch(reg, s, i + 1);
    }
  }

  /** No entry at or after index `i` matching means the suffix from `i` contains no match. */
  lemma NoMatchSuffix(reg: seq<Service>, s: Service, i: nat)
    requires i <= |reg| && NoMatchFrom(reg, s, i)
    ensures !Contains(reg[i..], s)
  {
    forall j | 0 <= j < |reg| - i
      ensures !Same(reg[i..][j], s)
    {
      assert reg[i..][j] == reg[i + j];
    }
  }

  /** Removal from a sequence that starts with a non-matching entry keeps that entry first. */
  lemma RemoveCons(reg: seq<Service>, s: Service, i: nat)
    requires i < |reg| && !Same(reg[i], s)
    ensures Remove(reg[i..], s) == [reg[i]] + Remove(reg[i + 1..], s)
  {
    assert reg[i..][1..] == reg[i + 1..];
  }

  /** A match at `i` is deleted, and the loop goes on at `i + 1` over the shortened registry. */
  lemma AsWrittenDropsAt(reg: seq<Service>, s: Service, i: nat)
    requires i < |reg| && Same(reg[i], s)
    ensures RemoveAsWritten(reg, s, i) == RemoveAsWritten(reg[..i] + reg[i + 1..], s, i + 1)
  {
  }

  /** Removal from a sequence that starts with a matching entry drops that entry. */
  lemma RemoveDropsHead(reg: seq<Service>, s: Service, i: nat)
    requires i < |reg| && Same(reg[i], s)
    ensures Remove(reg[i..], s) == Remove(reg[i + 1..], s)
  {
    assert reg[i..][1..] == reg[i + 1..];
  }

  /** Deleting the entry at `i` keeps the entries after it free of matches, one place earlier. */
  lemma NoMatchAfterDrop(reg: seq<Service>, s: Service, i: nat)
    requires i < |reg| && NoMatchFrom(reg, s, i + 1)
    ensures NoMatchFrom(reg[..i] + reg[i + 1..], s, i)
  {
    var reg' := reg[..i] + reg[i + 1..];
    forall j | i <= j < |reg'|
      ensures !Same(reg'[j], s)
    {
      assert reg'[j] == reg[j + 1];
    }
  }

  /** The single match sits at `i`: the loop deletes it and nothing else. */
  lemma AsWrittenMatchAt(reg: seq<Service>, s: Service, i: nat)
    requires i < |reg| && Same(reg[i], s) && NoMatchFrom(reg, s, i + 1)
    ensures RemoveAsWritten(reg, s, i) == reg[..i] + Remove(reg[i..], s)
  {
    AsWrittenDropsAt(reg, s, i);
    NoMatchAfterDrop(reg, s, i);
    AsWrittenNoMatch(reg[..i] + reg[i + 1..], s, i + 1);
    RemoveDropsHead(reg, s, i);
    NoMatchSuffix(reg, s, i + 1);
  }

  /** The entry at `i` does not match: the loop keeps it and goes on from `i + 1`. */
  lemma AsWrittenKeepAt(reg: seq<Service>, s: Service, i: nat)
    requires i < |reg| && !Same(reg[i], s)
    requires RemoveAsWritten(reg, s, i + 1) == reg[..i + 1] + Remove(reg[i + 1..], s)
    ensures RemoveAsWritten(reg, s, i) == reg[..i] + Remove(reg[i..], s)
  {
    var rest := Remove(reg[i + 1..], s);
    assert RemoveAsWritten(reg, s, i) == RemoveAsWritten(reg, s, i + 1);
    assert Remove(reg[i..], s) == [reg[i]] + rest by {
      RemoveCons(reg, s, i);
    }
    assert reg[..i + 1] + rest == reg[..i] + ([reg[i]] + rest) by {
      assert reg[..i + 1] == reg[..i] + [reg[i]];
    }
  }

  /**
   * When at most one entry from index `i` on matches, the loop as written
   * removes exactly what `Remove` removes.
   */
  lemma {:induction false} AsWrittenAtMostOne(reg: seq<Service>, s: Service, i: nat)
    requires i <= |reg|
    requires forall j, k :: i <= j < k < |reg| ==> !(Same(reg[j], s) && Same(reg[k], s))
    ensures RemoveAsWritten(reg, s, i) == reg[..i] + Remove(reg[i..], s)
    decreases |reg| - i
  {
    if i == |reg| {
      assert reg[..i] == reg && reg[i..] == [];
    } else if Same(reg[i], s) {
      assert NoMatchFrom(reg, s, i + 1) by {
        forall k | i + 1 <= k < |reg|
          ensures !Same(reg[k], s)
        {
          assert !(Same(reg[i], s) && Same(reg[k], s));
        }
      }
      AsWrittenMatchAt(reg, s, i);
    } else {
      AsWrittenAtMostOne(reg, s, i + 1);
      AsWrittenKeepAt(reg, s, i);
    }
  }

  /** On a registry without duplicates the loop as written is a correct removal. */
  lemma AsWrittenAgreesWithoutDuplicates(reg: seq<Service>, s: Service)
    requires NoDuplicates(reg)
    ensures RemoveAsWritten(reg, s, 0) == Remove(reg, s)
  {
    forall j, k | 0 <= j < k < |reg|
      ensures !(Same(reg[j], s) && Same(reg[k], s))
    {
      assert !Same(reg[j], reg[k]);
    }
    AsWrittenAtMostOne(reg, s, 0);
    assert reg[0..] == reg;
  }

  /** Deleting one matching entry does not change what a correct removal leaves. */
  lemma DropAt(reg: seq<Service>, s: Service, i: nat)
    requires i < |reg| && Same(reg[i], s)
    ensures Remove(reg[..i] + reg[i + 1..], s) == Remove(reg, s)
  {
    assert reg == reg[..i] + ([reg[i]] + reg[i + 1..]);
    RemoveAppend(reg[..i], [reg[i]] + reg[i + 1..], s);
    RemoveAppend([reg[i]], reg[i + 1..], s);
    RemoveSingleton(reg[i], s);
    RemoveAppend(reg[..i], reg[i + 1..], s);
  }

  /**
   * The loop as written deletes only matching entries: what is left besides
   * the copies of `s` it skipped is every other entry, in order and with its
   * multiplicity, exactly as a correct removal leaves them.
   */
  lemma {:induction false} AsWrittenThenRemove(reg: seq<Service>, s: Service, i: nat)
    ensures Remove(RemoveAsWritten(reg, s, i), s) == Remove(reg, s)
    decreases |reg| - i
  {
    if i < |reg| {
      if Same(reg[i], s) {
        AsWrittenThenRemove(reg[..i] + reg[i + 1..], s, i + 1);
        DropAt(reg, s, i);
      } else {
        AsWrittenThenRemove(reg, s, i + 1);
      }
    }
  }

  /** The loop as written never creates a duplicate: it only deletes entries. */
  lemma AsWrittenKeepsNoDuplicates(reg: seq<Service>, s: Service)
    requires NoDuplicates(reg)
    ensures NoDuplicates(RemoveAsWritten(reg, s, 0))
  {
    AsWrittenAgreesWithoutDuplicates(reg, s);
    RemoveKeepsNoDuplicates(reg, s);
  }

  /**
   * The loop as written leaves an instance behind when two entries for it are
   * adjacent, which the unconditional append of a subscription can produce.
   */
  lemma AsWrittenLeavesAdjacentDuplicate(s: Service)
    ensures RemoveAsWritten([s, s], s, 0) == [s]
    ensures Contains(RemoveAsWritten([s, s], s, 0), s)
    ensures !Contains(Remove([s, s], s), s)
  {
    assert [s, s][..0] + [s, s][1..] == [s];
    assert Same([s][0], s);
  }

  /**
   * The ordering key of the linker's comparator: a never-used instance is
   * older than any used one; used ones compare by their timestamps.
   */
  function Age(s: Service): int
  {
    match s.lastUsed
    case None => -1
    case Some(t) => t
  }

  /**
   * The comparator given to `Stream.min`: negative when `a` has no timestamp,
   * positive when only `b` has none, else the timestamps' comparison.
   */
  function Compare(a: Service, b: Service): int
  {
    if a.lastUsed.None? then -1
    else if b.lastUsed.None? then 1
    else if a.lastUsed.value < b.lastUsed.value then -1
    else if a.lastUsed.value == b.lastUsed.value then 0
    else 1
  }

  /** `k` is the first entry with id `id` whose age is minimal among those with that id. */
  predicate IsLruPick(reg: seq<Service>, id: byte, k: nat)
  {
    && k < |reg| && reg[k].id == id
    && (forall j :: 0 <= j < |reg| && reg[j].id == id ==> Age(reg[k]) <= Age(reg[j]))
    && (forall j :: 0 <= j < k && reg[j].id == id ==> Age(reg[k]) < Age(reg[j]))
  }

  /**
   * What the scan has established after entries `0..i`: `best` is the pick
   * among them, or `None` when none of them carries `id`.
   */
  predicate PickSoFar(reg: seq<Service>, id: byte, i: nat, best: Option<nat>)
  {
    && i <= |reg|
    && (best.None? ==> forall j :: 0 <= j < i ==> reg[j].id != id)
    && (best.Some? ==> best.value < i && IsLruPick(reg[..i], id, best.value))
  }

  /**
   * One step of `Stream.min`'s reduction: entry `i` replaces the accumulator
   * only when it carries `id` and the comparator says the accumulator is
   * greater.
   */
  function Accumulate(reg: seq<Service>, id: byte, i: nat, best: Option<nat>): Option<nat>
    requires i < |reg| && (best.Some? ==> best.value < |reg|)
  {
    if reg[i].id != id then best
    else
      match best
      case None => Some(i)
      case Some(b) => if Compare(reg[b], reg[i]) <= 0 then best else Some(i)
  }

  /** The comparator's verdict is the order of `Age`. */
  lemma CompareOrdersByAge(a: Service, b: Service)
    ensures Compare(a, b) <= 0 <==> Age(a) <= Age(b)
  {
  }

  /** A reduction step extends the pick from entries `0..i` to entries `0..i+1`. */
  lemma AccumulateKeepsPick(reg: seq<Service>, id: byte, i: nat, best: Option<nat>)
    requires i < |reg| && PickSoFar(reg, id, i, best)
    ensures PickSoFar(reg, id, i + 1, Accumulate(reg, id, i, best))
  {
    var p, q := reg[..i], reg[..i + 1];
    assert forall j :: 0 <= j < i ==> q[j] == p[j] == reg[j];
    assert q[i] == reg[i];
    if best.Some? && reg[i].id == id {
      CompareOrdersByAge(reg[best.value], reg[i]);
    }
  }

  /**
   * `Stream.min` over the entries with id `id` from index `i` on, as the
   * reduction that keeps the accumulator `best` when the comparator says it
   * is not greater than the next entry.
   */
  function MinFrom(reg: seq<Service>, id: byte, i: nat, best: Option<nat>): (k: Option<nat>)
    requires PickSoFar(reg, id, i, best)
    ensures k.None? <==> forall j :: 0 <= j < |reg| ==> reg[j].id != id
    ensures k.Some? ==> IsLruPick(reg, id, k.value)
    decreases |reg| - i
  {
    if i == |reg| then
      assert reg[..i] == reg;
      best
    else
      AccumulateKeepsPick(reg, id, i, best);
      MinFrom(reg, id, i + 1, Accumulate(reg, id, i, best))
  }

  /**
   * The least recently used entry with id `id`: a never-used one beats any
   * used one, otherwise the oldest timestamp wins, ties going to the earlier
   * entry. `None` when no entry carries the id, in particular when the
   * registry is empty.
   */
  function Lru(reg: seq<Service>, id: byte): (k: Option<nat>)
    ensures k.None? <==> forall j :: 0 <= j < |reg| ==> reg[j].id != id
    ensures k.Some? ==> IsLruPick(reg, id, k.value)
  {
    MinFrom(reg, id, 0, None)
  }

  /** Marks entry `k` as just used at time `now`; nothing else changes. */
  function Touch(reg: seq<Service>, k: nat, now: nat): (r: seq<Service>)
    requires k < |reg|
    ensures |r| == |reg| && Same(r[k], reg[k]) && r[k].lastUsed == Some(now)
    ensures forall j :: 0 <= j < |reg| && j != k ==> r[j] == reg[j]
  {
    reg[k := reg[k].(lastUsed := Some(now))]
  }
}

=== FILE: scenarios.dfy ===
/**
 * Properties that span several handlers or both kinds of node: the
 * subscription handshake, the end-to-end example of the protocol, liveness
 * verification against a live or dead service, the rotation of the
 * least-recently-used choice, and the two defects of the linker as written.
 */
module Scenarios {
  import opened Wrappers
  import opened Bytes
  import opened Wire
  import opened Registry
  import opened Bootstrap
  import opened Linker
  import ServiceNode

  /**
   * The handshake: the linker that receives a node's subscription registers
   * the node under its id at the address and port the datagram came from,
   * announces it to every peer, and sends back the datagram that ends the
   * node's wait.
   */
  lemma SubscriptionHandshake(reg: seq<Service>, peers: seq<Endpoint>, node: Endpoint, id: int,
                              linkers: seq<Endpoint>, choice: nat, reply: Received, now: nat)
    requires choice < |linkers|
    ensures var d := ServiceNode.SubscriptionTo(id, linkers, choice);
      var o := Step(reg, peers, Inbound(node, d.payload), reply, now);
      var s := Service(ToByte(id), node.ip, node.port, None);
      && Contains(o.registry, s)
      && |o.sent| == |peers| + 1
      && (forall i :: 0 <= i < |peers| ==> o.sent[i] == Datagram(Main, peers[i], Announcement(AddService, s)))
      && o.sent[|peers|].to == node
      && ServiceNode.AwaitConfirmation([Got(Inbound(linkers[choice], o.sent[|peers|].payload))]) == ServiceNode.Confirmed(1)
  {
    var d := ServiceNode.SubscriptionTo(id, linkers, choice);
    var buf := Receive(d.payload, RequestBufferSize);
    assert buf[0] == Code(Subscribe) && buf[1] == ToByte(id);
    var o := Step(reg, peers, Inbound(node, d.payload), reply, now);
    assert o == Subscription(reg, peers, node, ToByte(id));
    assert Same(o.registry[|reg|], Service(ToByte(id), node.ip, node.port, None));
  }

  /** The example run of the protocol: a subscription from 10.0.0.9:9000 and a client's request for its id. */
  lemma SubscribeThenRequest(peers: seq<Endpoint>, client: Endpoint, reply: Received, t0: nat, t1: nat)
    ensures var node := Endpoint(Ip(10, 0, 0, 9), 9000);
      var s := Service(5, node.ip, node.port, None);
      var o1 := Step([], peers, Inbound(node, [Code(Subscribe), 5]), reply, t0);
      var o2 := Step(o1.registry, peers, Inbound(client, [Code(ServiceRequest), 5]), reply, t1);
      && o1.registry == [s]
      && o1.sent == Broadcast(peers, Announcement(AddService, s)) + [Datagram(Main, node, [Code(SubscribeConfirm)])]
      && o2.sent == [Datagram(Main, client, Announcement(ServiceResponse, s))]
      && o2.registry == [s.(lastUsed := Some(t1))]
  {
    var node := Endpoint(Ip(10, 0, 0, 9), 9000);
    var s := Service(5, node.ip, node.port, None);
    SubscribeRouted([], peers, node, 5, reply, t0);
    assert Subscription([], peers, node, 5).registry == [s];
    RequestRouted([s], peers, client, 5, reply, t1);
    assert IsLruPick([s], 5, 0);
  }

  /** A two-byte subscription datagram reaches the subscription handler. */
  lemma SubscribeRouted(reg: seq<Service>, peers: seq<Endpoint>, node: Endpoint, id: byte, reply: Received, now: nat)
    ensures Step(reg, peers, Inbound(node, [Code(Subscribe), id]), reply, now) == Subscription(reg, peers, node, id)
  {
    var b := Receive([Code(Subscribe), id], RequestBufferSize);
    assert b[0] == Code(Subscribe) && b[1] == id;
  }

  /** A two-byte client request reaches the client handler. */
  lemma RequestRouted(reg: seq<Service>, peers: seq<Endpoint>, client: Endpoint, id: byte, reply: Received, now: nat)
    ensures Step(reg, peers, Inbound(client, [Code(ServiceRequest), id]), reply, now) == ServeClient(reg, client, id, now)
  {
    var b := Receive([Code(ServiceRequest), id], RequestBufferSize);
    assert b[0] == Code(ServiceRequest) && b[1] == id;
  }

  /**
   * A complaint about a registered service whose probe goes unanswered (or
   * is answered with anything but "I exist") leaves no entry for it and
   * sends exactly one removal announcement to each peer, after the probe.
   * The linker as written does the same on a registry without duplicates
   * (`DoubleSubscriptionSurvivesComplaint` shows what it does otherwise).
   */
  lemma DeadServiceIsEvicted(reg: seq<Service>, peers: seq<Endpoint>, client: Endpoint, s: Service, reply: Received, now: nat)
    requires ValidPort(s) && Contains(reg, s) && !ConfirmsLife(reply)
    ensures var o := Step(reg, peers, Inbound(client, Announcement(NoSuchService, s)), reply, now);
      && !Contains(o.registry, s)
      && o.sent == [ProbeTo(Forget(s))] + Broadcast(peers, Announcement(RemoveService, s))
      && (NoDuplicates(reg) ==> StepAsWritten(reg, peers, Inbound(client, Announcement(NoSuchService, s)), reply, now) == o)
  {
    var m := Announcement(NoSuchService, s);
    var buf := Receive(m, RequestBufferSize);
    assert buf[0] == Code(NoSuchService);
    assert buf[1..8] == m[1..8];
    RecordRoundTrip(s, buf, 1);
    assert Announcement(RemoveService, Forget(s)) == Announcement(RemoveService, s);
    ContainsSameInstance(reg, s, Forget(s));
    var o := Step(reg, peers, Inbound(client, m), reply, now);
    ContainsSameInstance(o.registry, Forget(s), s);
    assert NoDuplicates(reg) ==> StepAsWritten(reg, peers, Inbound(client, m), reply, now) == o by {
      if NoDuplicates(reg) {
        AsWrittenAgreesWithStep(reg, peers, Inbound(client, m), reply, now);
      }
    }
  }

  /** Membership only looks at id, address and port. */
  lemma ContainsSameInstance(reg: seq<Service>, s: Service, t: Service)
    requires Same(s, t)
    ensures Contains(reg, s) <==> Contains(reg, t)
  {
  }

  /** A complaint about a service the registry does not hold sends no probe and changes nothing. */
  lemma ComplaintAboutUnknownService(reg: seq<Service>, peers: seq<Endpoint>, client: Endpoint, s: Service, reply: Received, now: nat)
    requires ValidPort(s) && !Contains(reg, s)
    ensures Step(reg, peers, Inbound(client, Announcement(NoSuchService, s)), reply, now) == Outcome(reg, [])
  {
    var m := Announcement(NoSuchService, s);
    var buf := Receive(m, RequestBufferSize);
    assert buf[0] == Code(NoSuchService);
    assert buf[1..8] == m[1..8];
    RecordRoundTrip(s, buf, 1);
    ContainsSameInstance(reg, s, Forget(s));
  }

  /**
   * A live service node answers the linker's probe with "I exist", and that
   * answer leaves the linker's registry as it was.
   */
  lemma LiveServiceSurvivesComplaint(reg: seq<Service>, peers: seq<Endpoint>, client: Endpoint, s: Service,
                                     verifier: Endpoint, now: nat)
    requires ValidPort(s) && Contains(reg, s)
    ensures var node := Endpoint(s.ip, s.port);
      var answer := ServiceNode.Serve(Inbound(verifier, ProbeTo(s).payload));
      var o := Step(reg, peers, Inbound(client, Announcement(NoSuchService, s)), Got(Inbound(node, answer.payload)), now);
      && answer.to == verifier
      && o.registry == reg
      && o.sent == [ProbeTo(Forget(s))]
  {
    var answer := ServiceNode.Serve(Inbound(verifier, ProbeTo(s).payload));
    assert Receive(ProbeTo(s).payload, ServiceNode.RequestBufferSize)[0] == Code(Probe);
    assert answer.payload == [Code(IExist)];
    assert Receive(answer.payload, ProbeBufferSize)[0] == Code(IExist);
    var m := Announcement(NoSuchService, s);
    var buf := Receive(m, RequestBufferSize);
    assert buf[0] == Code(NoSuchService);
    assert buf[1..8] == m[1..8];
    RecordRoundTrip(s, buf, 1);
    ContainsSameInstance(reg, s, Forget(s));
  }

  /** The same add announcement received twice registers the service once. */
  lemma AddAnnouncementIdempotent(reg: seq<Service>, peers: seq<Endpoint>, peer: Endpoint, s: Service,
                                  reply: Received, now: nat)
    requires ValidPort(s)
    ensures var m := Inbound(peer, Announcement(AddService, s));
      var o1 := Step(reg, peers, m, reply, now);
      var o2 := Step(o1.registry, peers, m, reply, now);
      && o2 == Outcome(o1.registry, [])
      && Contains(o1.registry, s)
      && |o1.registry| <= |reg| + 1
  {
    var m := Announcement(AddService, s);
    var buf := Receive(m, RequestBufferSize);
    assert buf[0] == Code(AddService);
    assert buf[1..8] == m[1..8];
    RecordRoundTrip(s, buf, 1);
    var o1 := Step(reg, peers, Inbound(peer, m), reply, now);
    ContainsSameInstance(o1.registry, s, Forget(s));
  }

  /**
   * The failover example: the first peer times out, the second answers with
   * its registry, and the third is never asked.
   */
  lemma BootstrapFailover(p1: Endpoint, p2: Endpoint, p3: Endpoint, theirs: seq<Service>, late: Received)
    requires |theirs| <= 100 && forall i :: 0 <= i < |theirs| ==> ValidPort(theirs[i])
    ensures Run([p1, p2, p3], [TimedOut, Got(Inbound(p2, EncodeList(theirs))), late])
      == Synced(ForgetAll(theirs), [ListRequestTo(p1), ListRequestTo(p2)])
  {
    CopiesFirstAnsweringPeer([p1, p2, p3], [TimedOut, Got(Inbound(p2, EncodeList(theirs))), late], 1, theirs);
    assert [p1, p2, p3][..2] == [p1, p2];
  }

  // ---------------------------------------------------------------------
  // Rotation of the least-recently-used choice
  // ---------------------------------------------------------------------

  /**
   * The entries picked by successive requests for `id`, the i-th one served
   * at time `nows[i]`, with the registry each leaves behind.
   */
  function Picks(reg: seq<Service>, id: byte, nows: seq<nat>): (r: seq<Option<nat>>)
    ensures |r| == |nows|
    ensures forall i :: 0 <= i < |r| ==> (r[i].None? <==> forall j :: 0 <= j < |reg| ==> reg[j].id != id)
    decreases |nows|
  {
    if nows == [] then []
    else
      match Lru(reg, id)
      case None => [None] + Picks(reg, id, nows[1..])
      case Some(k) => [Some(k)] + Picks(Touch(reg, k, nows[0]), id, nows[1..])
  }

  /**
   * `a` comes before `b` in the cyclic order of indices that starts at `j`:
   * j, j + 1, ..., the last index, then 0, ..., j - 1.
   */
  predicate Before(a: nat, b: nat, j: nat)
  {
    (j <= a && (b < j || a < b)) || (a < b && b < j)
  }

  /**
   * The shape of a registry of instances of one id under repeated requests:
   * ages never decrease along the cyclic order starting at `j` (equal ages
   * only among never-used entries), entry `j` is strictly older than every
   * entry before it, and every timestamp is below `bound`.
   */
  predicate Rotation(reg: seq<Service>, id: byte, j: nat, bound: nat)
  {
    && j < |reg|
    && (forall a :: 0 <= a < |reg| ==> reg[a].id == id && Age(reg[a]) < bound)
    && (forall a, b :: 0 <= a < |reg| && 0 <= b < |reg| && Before(a, b, j) ==>
          Age(reg[a]) <= Age(reg[b]) && (Age(reg[a]) == Age(reg[b]) ==> reg[a].lastUsed.None?))
    && (forall a :: 0 <= a < j ==> Age(reg[j]) < Age(reg[a]))
  }

  /** The index after `j`, cyclically. */
  function NextIndex(j: nat, n: nat): nat
  {
    if j + 1 < n then j + 1 else 0
  }

  /** In a rotation from `j`, a request picks `j`, and marking it used moves the rotation on by one. */
  lemma RotationStep(reg: seq<Service>, id: byte, j: nat, bound: nat, now: nat)
    requires Rotation(reg, id, j, bound) && bound <= now
    ensures Lru(reg, id) == Some(j)
    ensures Rotation(Touch(reg, j, now), id, NextIndex(j, |reg|), now + 1)
  {
    assert IsLruPick(reg, id, j) by {
      forall a | 0 <= a < |reg| && j < a
        ensures Age(reg[j]) <= Age(reg[a])
      {
        assert Before(j, a, j);
      }
    }
    LruPickIsUnique(reg, id, j);
    var r := Touch(reg, j, now);
    var j' := NextIndex(j, |reg|);
    forall a, b | 0 <= a < |r| && 0 <= b < |r| && Before(a, b, j')
      ensures Age(r[a]) <= Age(r[b]) && (Age(r[a]) == Age(r[b]) ==> r[a].lastUsed.None?)
    {
      if b == j {
        assert a != j;
      } else {
        assert a != j;
        assert Before(a, b, j);
      }
    }
    forall a | 0 <= a < j'
      ensures Age(r[j']) < Age(r[a])
    {
      if a != j {
        assert Before(j', a, j);
        assert r[a].lastUsed.Some? by {
          assert Age(reg[j]) < Age(reg[a]);
        }
      }
    }
  }

  /** Starting one index later, cyclically, shifts every position by one. */
  lemma NextIndexShift(j: nat, n: nat, i: nat)
    requires j < n && 1 <= i
    ensures (NextIndex(j, n) + (i - 1)) % n == (j + i) % n
  {
    if j + 1 == n {
      assert NextIndex(j, n) + (i - 1) == (j + i) - n;
      ModMinusDivisor(j + i, n);
    }
  }

  /** Subtracting the divisor does not change the remainder. */
  lemma ModMinusDivisor(x: int, n: int)
    requires n > 0 && x >= n
    ensures (x - n) % n == x % n
  {
    var q, r := x / n, x % n;
    assert x - n == (q - 1) * n + r;
    ModOfDecomposition(x - n, n, q - 1, r);
  }

  /** The remainder is the `r` of any decomposition `x == q * n + r` with `0 <= r < n`. */
  lemma ModOfDecomposition(x: int, n: int, q: int, r: int)
    requires n > 0 && 0 <= r < n && x == q * n + r
    ensures x % n == r
  {
    var q', r' := x / n, x % n;
    assert (q' - q) * n == r - r';
    if q' > q {
      MulAtLeast(q' - q, n);
    } else if q' < q {
      MulAtLeast(q - q', n);
    }
  }

  /** A positive multiple of `n` is at least `n`. */
  lemma MulAtLeast(a: int, n: int)
    requires a >= 1 && n > 0
    ensures a * n >= n
  {
  }

  /** Request times that strictly increase. */
  predicate Increasing(nows: seq<nat>)
  {
    forall i, k :: 0 <= i < k < |nows| ==> nows[i] < nows[k]
  }

  /** The later requests of an increasing run are increasing and come after the first. */
  lemma IncreasingTail(nows: seq<nat>)
    requires nows != [] && Increasing(nows)
    ensures Increasing(nows[1..])
    ensures forall i :: 0 <= i < |nows| - 1 ==> nows[0] + 1 <= nows[1..][i]
  {
    assert forall i :: 0 <= i < |nows| - 1 ==> nows[1..][i] == nows[i + 1];
  }

  /**
   * If the first pick is `j` and the rest follow the rotation from the next
   * index, the whole run follows the rotation from `j`.
   */
  lemma ShiftedPicks(n: nat, j: nat, rest: seq<Option<nat>>)
    requires j < n
    requires forall i :: 0 <= i < |rest| ==> rest[i] == Some((NextIndex(j, n) + i) % n)
    ensures forall i :: 0 <= i < |rest| + 1 ==> ([Some(j)] + rest)[i] == Some((j + i) % n)
  {
    var picks := [Some(j)] + rest;
    ModOfDecomposition(j, n, 0, j);
    forall i | 0 <= i < |picks|
      ensures picks[i] == Some((j + i) % n)
    {
      if i > 0 {
        assert picks[i] == rest[i - 1];
        NextIndexShift(j, n, i);
      }
    }
  }

  /** A run whose first request picks `j` continues from the registry with `j` marked used. */
  lemma PicksFirst(reg: seq<Service>, id: byte, nows: seq<nat>, j: nat)
    requires nows != [] && Lru(reg, id) == Some(j)
    ensures Picks(reg, id, nows) == [Some(j)] + Picks(Touch(reg, j, nows[0]), id, nows[1..])
  {
  }

  /**
   * Successive requests at times `nows` pick `j`, then the index after it,
   * and so on cyclically, each from the registry its predecessor left.
   */
  predicate InTurn(reg: seq<Service>, id: byte, j: nat, nows: seq<nat>)
    decreases |nows|
  {
    nows == [] ||
      (j < |reg| && Lru(reg, id) == Some(j) &&
       InTurn(Touch(reg, j, nows[0]), id, NextIndex(j, |reg|), nows[1..]))
  }

  /** From a rotation at `j`, requests at increasing times are served in turn from `j`. */
  lemma {:induction false} RotationInTurn(reg: seq<Service>, id: byte, j: nat, bound: nat, nows: seq<nat>)
    requires Rotation(reg, id, j, bound) && Increasing(nows)
    requires forall i :: 0 <= i < |nows| ==> bound <= nows[i]
    ensures InTurn(reg, id, j, nows)
    decreases |nows|
  {
    if nows != [] {
      RotationStep(reg, id, j, bound, nows[0]);
      IncreasingTail(nows);
      RotationInTurn(Touch(reg, j, nows[0]), id, NextIndex(j, |reg|), nows[0] + 1, nows[1..]);
    }
  }

  /** Requests served in turn from `j`: the i-th picks entry (j + i) mod n. */
  lemma {:induction false} InTurnPicks(reg: seq<Service>, id: byte, j: nat, nows: seq<nat>)
    requires j < |reg| && InTurn(reg, id, j, nows)
    ensures forall i :: 0 <= i < |nows| ==> Picks(reg, id, nows)[i] == Some((j + i) % |reg|)
    decreases |nows|
  {
    if nows != [] {
      var reg' := Touch(reg, j, nows[0]);
      InTurnPicks(reg', id, NextIndex(j, |reg|), nows[1..]);
      PicksFirst(reg, id, nows, j);
      ShiftedPicks(|reg|, j, Picks(reg', id, nows[1..]));
    }
  }

  /** From a rotation at `j`, the i-th of a run of requests picks entry (j + i) mod n. */
  lemma RotationPicks(reg: seq<Service>, id: byte, j: nat, bound: nat, nows: seq<nat>)
    requires Rotation(reg, id, j, bound) && Increasing(nows)
    requires forall i :: 0 <= i < |nows| ==> bound <= nows[i]
    ensures forall i :: 0 <= i < |nows| ==> Picks(reg, id, nows)[i] == Some((j + i) % |reg|)
  {
    RotationInTurn(reg, id, j, bound, nows);
    InTurnPicks(reg, id, j, nows);
  }

  /**
   * Round robin: with every instance of an id never used, requests at
   * increasing times are served by the instances in registry order, each
   * once, and then again in the same order, and so on; the i-th request
   * gets instance i mod n.
   */
  lemma LruRoundRobin(reg: seq<Service>, id: byte, nows: seq<nat>)
    requires |reg| > 0 && forall i :: 0 <= i < |reg| ==> reg[i].id == id && reg[i].lastUsed == None
    requires Increasing(nows)
    ensures forall i :: 0 <= i < |nows| ==> Picks(reg, id, nows)[i] == Some(i % |reg|)
  {
    RotationPicks(reg, id, 0, 0, nows);
  }

  // ---------------------------------------------------------------------
  // Defects of the linker as written
  // ---------------------------------------------------------------------

  /** A 100-byte request buffer holding the 8-byte message `m`. */
  function RequestBuffer(m: seq<byte>): (buf: seq<byte>)
    requires |m| == 8
    ensures |buf| == RequestBufferSize && buf[..8] == m
  {
    Receive(m, RequestBufferSize)
  }

  /**
   * With the signed port decoding, a peer's announcement of a service on a
   * port from 32768 up registers a negative port; a client's complaint about
   * that very service (the same seven record bytes) then finds nothing, so no
   * probe is sent and the dead service is never evicted at this linker.
   */
  lemma SignedPortEscapesVerification(s: Service, peers: seq<Endpoint>, reply: Received)
    requires 0x8000 <= s.port < 0x1_0000
    ensures var reg := AddAnnouncedAsWritten([], RequestBuffer(Announcement(AddService, s)));
      && |reg| == 1 && reg[0].port < 0
      && VerifyAsWritten(reg, peers, RequestBuffer(Announcement(NoSuchService, s)), reply) == Outcome(reg, [])
  {
    var add := RequestBuffer(Announcement(AddService, s));
    var complaint := RequestBuffer(Announcement(NoSuchService, s));
    assert add[7] == Announcement(AddService, s)[7] == PortBytes(s.port)[1];
    assert add[7] >= 0x80;
    var reg := AddAnnouncedAsWritten([], add);
    assert complaint[1..8] == Announcement(NoSuchService, s)[1..8];
    assert NamedService(complaint).port >= 0;
  }

  /**
   * With the unsigned decoding every handler uses here, the same complaint
   * finds the announced service, whatever its port, and probes it.
   */
  lemma AnnouncedServiceIsVerifiable(reg: seq<Service>, s: Service, peers: seq<Endpoint>, reply: Received)
    requires ValidPort(s)
    ensures var reg' := AddAnnounced(reg, RequestBuffer(Announcement(AddService, s)));
      && Contains(reg', s)
      && Verify(reg', peers, RequestBuffer(Announcement(NoSuchService, s)), reply).sent[0] == ProbeTo(Forget(s))
  {
    var add := RequestBuffer(Announcement(AddService, s));
    var complaint := RequestBuffer(Announcement(NoSuchService, s));
    assert add[1..8] == Announcement(AddService, s)[1..8];
    assert complaint[1..8] == Announcement(NoSuchService, s)[1..8];
    RecordRoundTrip(s, add, 1);
    RecordRoundTrip(s, complaint, 1);
    var reg' := AddAnnounced(reg, add);
    ContainsSameInstance(reg', s, Forget(s));
  }

  /**
   * With the signed port decoding, a removal announcement for a service on a
   * port from 32768 that this linker registered through a subscription
   * removes nothing.
   */
  lemma SignedPortIgnoresRemoval(s: Service)
    requires 0x8000 <= s.port < 0x1_0000
    ensures RemoveAnnouncedAsWritten([s], RequestBuffer(Announcement(RemoveService, s))) == [s]
  {
    var buf := RequestBuffer(Announcement(RemoveService, s));
    assert buf[7] == PortBytes(s.port)[1];
    var t := SignedService(buf);
    assert t.port < 0 && !Same(s, t);
    assert RemoveAsWritten([s], t, 1) == [s];
  }

  /** With the unsigned decoding the same announcement removes it. */
  lemma RemovalAnnouncementRemoves(reg: seq<Service>, s: Service)
    requires ValidPort(s)
    ensures !Contains(RemoveAnnounced(reg, RequestBuffer(Announcement(RemoveService, s))), s)
  {
    var buf := RequestBuffer(Announcement(RemoveService, s));
    assert buf[1..8] == Announcement(RemoveService, s)[1..8];
    RecordRoundTrip(s, buf, 1);
    ContainsSameInstance(RemoveAnnounced(reg, buf), s, Forget(s));
  }

  /**
   * A service that subscribes twice in a row is registered twice, and the
   * removal loop as written then leaves one of the two entries behind.
   */
  lemma DoubleSubscriptionSurvivesRemoval(peers: seq<Endpoint>, node: Endpoint, id: byte)
    ensures var s := Service(id, node.ip, node.port, None);
      var reg := Subscription(Subscription([], peers, node, id).registry, peers, node, id).registry;
      && reg == [s, s]
      && Contains(RemoveAsWritten(reg, s, 0), s)
      && !Contains(Remove(reg, s), s)
  {
    var s := Service(id, node.ip, node.port, None);
    AsWrittenLeavesAdjacentDuplicate(s);
    RemoveRemovesAll([s, s], s);
  }

  /**
   * The skipped entry through the whole linker: a node that subscribed twice
   * is registered twice; a client's complaint whose probe times out removes
   * one copy in the linker as written, and both in the corrected one. Either
   * way the removal is announced to every peer.
   */
  lemma DoubleSubscriptionSurvivesComplaint(peers: seq<Endpoint>, node: Endpoint, client: Endpoint, id: byte, now: nat)
    ensures var s := Service(id, node.ip, node.port, None);
      var reg := Subscription(Subscription([], peers, node, id).registry, peers, node, id).registry;
      var m := Inbound(client, Announcement(NoSuchService, s));
      var o := StepAsWritten(reg, peers, m, TimedOut, now);
      && reg == [s, s]
      && o.registry == [s]
      && o.sent == [ProbeTo(s)] + Broadcast(peers, Announcement(RemoveService, s))
      && Step(reg, peers, m, TimedOut, now).registry == []
  {
    var s := Service(id, node.ip, node.port, None);
    var reg := [s, s];
    var m := Inbound(client, Announcement(NoSuchService, s));
    var buf := Receive(m.payload, RequestBufferSize);
    ComplaintNames(s);
    ComplaintRouted(reg, peers, m, TimedOut, now);
    assert Contains(reg, s) by {
      assert Same(reg[0], s);
    }
    assert VerifyAsWritten(reg, peers, buf, TimedOut).registry == [s] by {
      AsWrittenLeavesAdjacentDuplicate(s);
    }
    assert Verify(reg, peers, buf, TimedOut).registry == [] by {
      RemoveAppend([s], [s], s);
      RemoveSingleton(s, s);
    }
  }

  /** A complaint reaches the complaint handler, as written and corrected. */
  lemma ComplaintRouted(reg: seq<Service>, peers: seq<Endpoint>, m: Inbound, reply: Received, now: nat)
    requires Receive(m.payload, RequestBufferSize)[0] == Code(NoSuchService)
    ensures var buf := Receive(m.payload, RequestBufferSize);
      && StepAsWritten(reg, peers, m, reply, now) == VerifyAsWritten(reg, peers, buf, reply)
      && Step(reg, peers, m, reply, now) == Verify(reg, peers, buf, reply)
  {
    ComplaintRoutedAsWritten(reg, peers, m, reply, now);
    ComplaintRoutedCorrected(reg, peers, m, reply, now);
  }

  /** The loop as written hands a complaint to `VerifyAsWritten`. */
  lemma ComplaintRoutedAsWritten(reg: seq<Service>, peers: seq<Endpoint>, m: Inbound, reply: Received, now: nat)
    requires Receive(m.payload, RequestBufferSize)[0] == Code(NoSuchService)
    ensures StepAsWritten(reg, peers, m, reply, now) == VerifyAsWritten(reg, peers, Receive(m.payload, RequestBufferSize), reply)
  {
    CodesDistinct(NoSuchService, AddService);
    CodesDistinct(NoSuchService, RemoveService);
  }

  /** The corrected loop hands a complaint to `Verify`. */
  lemma ComplaintRoutedCorrected(reg: seq<Service>, peers: seq<Endpoint>, m: Inbound, reply: Received, now: nat)
    requires Receive(m.payload, RequestBufferSize)[0] == Code(NoSuchService)
    ensures Step(reg, peers, m, reply, now) == Verify(reg, peers, Receive(m.payload, RequestBufferSize), reply)
  {
    CodesDistinct(NoSuchService, ListRequest);
    CodesDistinct(NoSuchService, ServiceRequest);
    CodesDistinct(NoSuchService, AddService);
  }

  /** A complaint about `s` is routed to the verifier and names `s` without its timestamp. */
  lemma ComplaintNames(s: Service)
    requires ValidPort(s)
    ensures var buf := Receive(Announcement(NoSuchService, s), RequestBufferSize);
      buf[0] == Code(NoSuchService) && NamedService(buf) == Forget(s)
  {
    var m := Announcement(NoSuchService, s);
    var buf := Receive(m, RequestBufferSize);
    assert buf[1..8] == m[1..8];
    RecordRoundTrip(s, buf, 1);
  }

  /**
   * Bootstrap can install duplicates too: a list response whose count byte
   * promises two records it does not carry is read from the zero-filled
   * buffer as two identical all-zero records.
   */
  lemma PaddedListResponseDuplicates(p: Endpoint, q: Endpoint)
    ensures var b := Run([p], [Got(Inbound(q, [Code(ListResponse), 2]))]);
      && b.Synced?
      && |b.registry| == 2
      && Same(b.registry[0], b.registry[1])
      && !NoDuplicates(b.registry)
  {
    var payload := [Code(ListResponse), 2];
    var buf := Receive(payload, ListBufferSize);
    assert buf[0] == Code(ListResponse) && buf[1] == 2;
    var replies := [Got(Inbound(q, payload))];
    assert FirstAnswer(replies, 0);
    var d := DecodeList(payload);
    assert d.Decoded? && |d.services| == 2;
    assert buf[2..9] == buf[9..16];
    SameIffSameRecord(d.services[0], d.services[1]);
  }
}

=== FILE: service_node.dfy ===
/**
 * The service node (`ServiceServeur`): it subscribes to one linker, waits
 * for the confirmation, and then answers every datagram, echoing client
 * requests and confirming its existence to anything else.
 */
module ServiceNode {
  import opened Bytes
  import opened Wire

  /** Size of the buffer the confirmation is awaited in. */
  const ConfirmBufferSize: nat := 1

  /** Size of the buffer every request is received into once serving. */
  const RequestBufferSize: nat := 1000

  /** The subscription: the subscribe tag, then the service id cast to a byte. */
  function SubscriptionMessage(id: int): (m: seq<byte>)
    ensures |m| == 2 && m[0] == Code(Subscribe) && m[1] == ToByte(id)
  {
    [Code(Subscribe), ToByte(id)]
  }

  /** The subscription datagram, addressed to the linker the node picked. */
  function SubscriptionTo(id: int, linkers: seq<Endpoint>, choice: nat): (d: Datagram)
    requires choice < |linkers|
    ensures d.to == linkers[choice] && d.payload == SubscriptionMessage(id)
  {
    Datagram(Main, linkers[choice], SubscriptionMessage(id))
  }

  /** A receive that ends the wait: its first byte, in a one-byte buffer, is the confirmation tag. */
  predicate Confirms(r: Received)
  {
    r.Got? && Receive(r.msg.payload, ConfirmBufferSize)[0] == Code(SubscribeConfirm)
  }

  /** A datagram that arrived but is not the confirmation: the node keeps waiting. */
  predicate Ignored(r: Received)
  {
    r.Got? && !Confirms(r)
  }

  /** How the wait for the confirmation ends. */
  datatype Wait =
    | Confirmed(receives: nat)  // confirmed by the receive numbered `receives` (from 1)
    | GaveUp                    // a receive timed out: the server stops without serving
    | Waiting                   // every receive so far was something else

  /**
   * The `do ... while` loop awaiting the confirmation, given the outcomes of
   * its successive receives: other datagrams are ignored, the confirmation
   * ends the wait, and a timeout ends the server.
   */
  function AwaitConfirmation(events: seq<Received>): (w: Wait)
    ensures forall k :: 0 <= k < |events| && (forall j :: 0 <= j < k ==> Ignored(events[j])) ==>
      && (Confirms(events[k]) ==> w == Confirmed(k + 1))
      && (events[k].TimedOut? ==> w == GaveUp)
    ensures (forall j :: 0 <= j < |events| ==> Ignored(events[j])) ==> w == Waiting
  {
    if events == [] then Waiting
    else if events[0].TimedOut? then GaveUp
    else if Confirms(events[0]) then Confirmed(1)
    else
      var rest := AwaitConfirmation(events[1..]);
      assert forall j :: 0 <= j < |events| - 1 ==> events[1..][j] == events[j + 1];
      match rest
      case Confirmed(n) => Confirmed(n + 1)
      case GaveUp => GaveUp
      case Waiting => Waiting
  }

  /**
   * The answer to one datagram once serving. A client request (first byte
   * `CONTACT_SERVICE`) is echoed in a reply as long as the whole 1000-byte
   * buffer: the reply tag, then the buffer's bytes 1 to 999, unchanged. Any
   * other datagram, such as a linker's probe, is answered with the one-byte
   * "I exist". Either way the answer goes back to the sender.
   */
  function Serve(msg: Inbound): (d: Datagram)
    ensures d.via == Main && d.to == msg.from
    ensures Receive(msg.payload, RequestBufferSize)[0] == Code(ContactService) ==>
      && |d.payload| == RequestBufferSize
      && d.payload[0] == Code(ServiceReply)
      && forall i :: 1 <= i < RequestBufferSize ==> d.payload[i] == if i < |msg.payload| then msg.payload[i] else 0
    ensures Receive(msg.payload, RequestBufferSize)[0] != Code(ContactService) ==> d.payload == [Code(IExist)]
  {
    var buf := Receive(msg.payload, RequestBufferSize);
    if buf[0] == Code(ContactService) then
      Datagram(Main, msg.from, [Code(ServiceReply)] + buf[1..])
    else
      Datagram(Main, msg.from, [Code(IExist)])
  }

  /** What a service node sends over its life: the subscription, then one answer per request if confirmed. */
  datatype Life = Life(subscription: Datagram, wait: Wait, answers: seq<Datagram>)

  /**
   * `demarrer`: subscribe to `linkers[choice]` (the random pick), wait for
   * the confirmation through `events`, then answer each of `requests`, the
   * datagrams received after the confirmation. A server that was not
   * confirmed answers nothing. `Random.nextInt` needs at least one linker.
   */
  function Run(id: int, linkers: seq<Endpoint>, choice: nat, events: seq<Received>, requests: seq<Inbound>): (l: Life)
    requires choice < |linkers|
    ensures l.subscription == SubscriptionTo(id, linkers, choice)
    ensures !l.wait.Confirmed? ==> l.answers == []
    ensures l.wait.Confirmed? ==> |l.answers| == |requests|
    ensures l.wait.Confirmed? ==> forall i :: 0 <= i < |requests| ==>
      l.answers[i] == Serve(requests[i]) && l.answers[i].to == requests[i].from
  {
    var w := AwaitConfirmation(events);
    var answers := if w.Confirmed? then seq(|requests|, i requires 0 <= i < |requests| => Serve(requests[i])) else [];
    Life(SubscriptionTo(id, linkers, choice), w, answers)
  }
}

=== FILE: wire.dfy ===
/**
 * The wire protocol shared by linkers, service nodes and clients: the
 * message kinds, the network addresses, the service record and the
 * list-response layout.
 */
module Wire {
  import opened Wrappers
  import opened Bytes

  /** The message kinds of the protocol (the `Protocole` enumeration). */
  datatype Kind =
    | ListRequest      // DEMANDE_DE_LISTE_DE_SERVICES, linker -> linker
    | ListResponse     // REPONSE_DEMANDE_LISTE_DE_SERVICES, linker -> linker
    | ServiceRequest   // DEMANDE_DE_SERVICE, client -> linker
    | ServiceResponse  // REPONSE_DEMANDE_DE_SERVICE, linker -> client
    | AddService       // AJOUT_SERVICE, linker -> linker
    | RemoveService    // SUPPRESSION_SERVICE, linker -> linker
    | NoSuchService    // SERVICE_EXISTE_PAS, both the "not found" reply and the client's complaint
    | Subscribe        // ABONNEMENT, service -> linker
    | SubscribeConfirm // CONFIRMATION_ABONNEMENT, linker -> service
    | Probe            // VERIFIE_N_EXISTE_PAS, linker -> service
    | IExist           // J_EXISTE, service -> linker
    | ContactService   // CONTACT_SERVICE, client -> service
    | ServiceReply     // REPONSE_DU_SERVICE, service -> client

  /**
   * The tag byte of a message kind (the enumeration's ordinal). The actual
   * ordinals are not part of this model; any distinct small values give the
   * same results, and the proofs rely only on their being distinct.
   */
  function Code(k: Kind): byte
  {
    match k
    case ListRequest => 0
    case ListResponse => 1
    case ServiceRequest => 2
    case ServiceResponse => 3
    case AddService => 4
    case RemoveService => 5
    case NoSuchService => 6
    case Subscribe => 7
    case SubscribeConfirm => 8
    case Probe => 9
    case IExist => 10
    case ContactService => 11
    case ServiceReply => 12
  }

  /** Distinct kinds have distinct tags. */
  lemma CodesDistinct(k: Kind, k': Kind)
    ensures Code(k) == Code(k') <==> k == k'
  {
  }

  /** An IPv4 address as its four bytes, most significant first. */
  datatype Ip = Ip(a: byte, b: byte, c: byte, d: byte)

  /** A UDP endpoint: a linker, a service instance, or the sender of a datagram. */
  datatype Endpoint = Endpoint(ip: Ip, port: uint16)

  /**
   * A registered service instance. `lastUsed` is absent until a client is
   * first handed this instance; the port is an `int` because one decoding
   * in the linker can produce a negative one.
   */
  datatype Service = Service(id: byte, ip: Ip, port: int, lastUsed: Option<nat>)

  /** The linker's main socket, or the one it binds only while probing a service. */
  datatype Socket = Main | Verification

  /** A datagram a node sends. */
  datatype Datagram = Datagram(via: Socket, to: Endpoint, payload: seq<byte>)

  /** A datagram a node receives, with the sender the transport reports. */
  datatype Inbound = Inbound(from: Endpoint, payload: seq<byte>)

  /** The outcome of one receive with a timeout. */
  datatype Received = TimedOut | Got(msg: Inbound)

  /** Membership identity: id, address and port agree; the timestamp is ignored. */
  predicate Same(s: Service, t: Service)
  {
    s.id == t.id && s.ip == t.ip && s.port == t.port
  }

  /** A port that fits the two bytes of a record. */
  predicate ValidPort(s: Service)
  {
    0 <= s.port < 0x1_0000
  }

  /** The 7-byte service record: id, the four address bytes, the two port bytes. */
  function EncodeRecord(s: Service): (r: seq<byte>)
    ensures |r| == 7
  {
    [s.id, s.ip.a, s.ip.b, s.ip.c, s.ip.d] + PortBytes(s.port)
  }

  /** Reads the record at offset `at` of `buf`, the port as unsigned little-endian. */
  function DecodeRecord(buf: seq<byte>, at: nat): (s: Service)
    requires at + 7 <= |buf|
    ensures s.lastUsed == None && ValidPort(s)
    ensures EncodeRecord(s) == buf[at..at + 7]
  {
    Service(buf[at], Ip(buf[at + 1], buf[at + 2], buf[at + 3], buf[at + 4]),
            DecodePort(buf[at + 5], buf[at + 6]), None)
  }

  /** A service as a record carries it: the timestamp is not transmitted. */
  function Forget(s: Service): (t: Service)
    ensures Same(s, t) && t.lastUsed == None
  {
    s.(lastUsed := None)
  }

  /** Decoding an encoded record gives back the service, without its timestamp. */
  lemma RecordRoundTrip(s: Service, buf: seq<byte>, at: nat)
    requires ValidPort(s)
    requires at + 7 <= |buf| && buf[at..at + 7] == EncodeRecord(s)
    ensures DecodeRecord(buf, at) == Forget(s)
  {
    var e := buf[at..at + 7];
    PortRoundTrip(s.port);
    assert buf[at + 5] == e[5] && buf[at + 6] == e[6];
  }

  /** Two services with valid ports are the same entry exactly when their records are equal. */
  lemma SameIffSameRecord(s: Service, t: Service)
    requires ValidPort(s) && ValidPort(t)
    ensures Same(s, t) <==> EncodeRecord(s) == EncodeRecord(t)
  {
    if EncodeRecord(s) == EncodeRecord(t) {
      var e := EncodeRecord(s);
      RecordRoundTrip(s, e, 0);
      RecordRoundTrip(t, e, 0);
    }
  }

  /** The records of a list of services, one after the other. */
  function Records(services: seq<Service>): (r: seq<byte>)
    ensures |r| == 7 * |services|
    ensures forall i :: 0 <= i < |services| ==> r[7 * i..7 * i + 7] == EncodeRecord(services[i])
  {
    if services == [] then []
    else
      var rest := Records(services[1..]);
      var r := EncodeRecord(services[0]) + rest;
      assert forall i :: 1 <= i < |services| ==> r[7 * i..7 * i + 7] == EncodeRecord(services[1..][i - 1]) by {
        forall i | 1 <= i < |services|
          ensures r[7 * i..7 * i + 7] == EncodeRecord(services[1..][i - 1])
        {
          assert r[7 * i..7 * i + 7] == rest[7 * (i - 1)..7 * (i - 1) + 7];
        }
      }
      r
  }

  /**
   * The list response a linker sends to a peer asking for its registry: the
   * tag, the count as one byte, then one record per service in registry
   * order. The count byte is the size cast to a byte.
   */
  function EncodeList(services: seq<Service>): (r: seq<byte>)
    ensures |r| == 2 + 7 * |services|
    ensures r[0] == Code(ListResponse)
    ensures r[1] == |services| % 0x100
    ensures forall i :: 0 <= i < |services| ==> r[2 + 7 * i..9 + 7 * i] == EncodeRecord(services[i])
  {
    var r := [Code(ListResponse), ToByte(|services|)] + Records(services);
    assert forall i :: 0 <= i < |services| ==> r[2 + 7 * i..9 + 7 * i] == Records(services)[7 * i..7 * i + 7];
    r
  }

  /**
   * Byte by byte: record `i` of a list response occupies offsets 2 + 7i to
   * 8 + 7i, holding the id, the four address bytes, then the two port bytes.
   */
  lemma ListLayout(services: seq<Service>, i: nat)
    requires i < |services|
    ensures var r := EncodeList(services); var s := services[i];
      && r[2 + 7 * i] == s.id
      && r[3 + 7 * i] == s.ip.a && r[4 + 7 * i] == s.ip.b
      && r[5 + 7 * i] == s.ip.c && r[6 + 7 * i] == s.ip.d
      && r[7 + 7 * i] == PortBytes(s.port)[0] && r[8 + 7 * i] == PortBytes(s.port)[1]
  {
    var r := EncodeList(services);
    var e := EncodeRecord(services[i]);
    assert r[2 + 7 * i..9 + 7 * i] == e;
    assert forall k :: 0 <= k < 7 ==> r[2 + 7 * i + k] == e[k];
  }

  /** The result of reading a list response during bootstrap. */
  datatype ListDecoding =
    | Decoded(services: seq<Service>)
      /** A count between 101 and 127 indexes past the 702-byte buffer, which throws. */
    | Overrun

  /** Size of the bootstrap receive buffer: tag, count and 100 records. */
  const ListBufferSize: nat := 702

  /**
   * The bootstrap's reading of a list response: the count byte is read as a
   * signed Java byte, a count of zero or less adds nothing, and each record is
   * read from the zero-padded 702-byte buffer.
   */
  function DecodeList(payload: seq<byte>): (d: ListDecoding)
    ensures var n := Signed(Receive(payload, ListBufferSize)[1]);
      && (d.Overrun? <==> n > 100)
      && (d.Decoded? ==> |d.services| == if n < 0 then 0 else n)
      && (d.Decoded? ==> forall i :: 0 <= i < |d.services| ==>
            d.services[i].lastUsed == None && ValidPort(d.services[i]) &&
            EncodeRecord(d.services[i]) == Receive(payload, ListBufferSize)[2 + 7 * i..9 + 7 * i])
  {
    var buf := Receive(payload, ListBufferSize);
    var n := Signed(buf[1]);
    if n > 100 then Overrun
    else if n <= 0 then Decoded([])
    else Decoded(seq(n, i requires 0 <= i < n => DecodeRecord(buf, 2 + 7 * i)))
  }

  /**
   * Field by field: record `i` of a decoded list takes its id from offset
   * 2 + 7i, its address from 3 + 7i to 6 + 7i, and its port unsigned from
   * the low byte at 7 + 7i and the high byte at 8 + 7i.
   */
  lemma DecodedFields(payload: seq<byte>, i: nat)
    requires DecodeList(payload).Decoded? && i < |DecodeList(payload).services|
    ensures var buf := Receive(payload, ListBufferSize); var s := DecodeList(payload).services[i];
      && s.id == buf[2 + 7 * i]
      && s.ip == Ip(buf[3 + 7 * i], buf[4 + 7 * i], buf[5 + 7 * i], buf[6 + 7 * i])
      && s.port == buf[7 + 7 * i] as int + 0x100 * (buf[8 + 7 * i] as int)
  {
    var buf := Receive(payload, ListBufferSize);
    var s := DecodeList(payload).services[i];
    var e := buf[2 + 7 * i..9 + 7 * i];
    assert EncodeRecord(s) == e;
    assert forall k :: 0 <= k < 7 ==> e[k] == buf[2 + 7 * i + k];
    assert PortBytes(s.port) == [e[5], e[6]];
    assert s.port == DecodePort(e[5], e[6]) by {
      PortRoundTrip(s.port);
    }
  }

  /** The services of a registry as they arrive at another linker: every timestamp is dropped. */
  function ForgetAll(services: seq<Service>): (r: seq<Service>)
    ensures |r| == |services|
    ensures forall i :: 0 <= i < |r| ==> r[i] == Forget(services[i])
  {
    seq(|services|, i requires 0 <= i < |services| => Forget(services[i]))
  }

  /**
   * A list response read back by the bootstrap gives the sender's registry,
   * less the timestamps, as long as it holds at most 100 services.
   */
  lemma ListRoundTrip(services: seq<Service>)
    requires |services| <= 100
    requires forall i :: 0 <= i < |services| ==> ValidPort(services[i])
    ensures DecodeList(EncodeList(services)) == Decoded(ForgetAll(services))
  {
    var e := EncodeList(services);
    var buf := Receive(e, ListBufferSize);
    assert buf[..|e|] == e;
    assert Signed(buf[1]) == |services|;
    var d := DecodeList(e);
    forall i | 0 <= i < |services|
      ensures d.services[i] == Forget(services[i])
    {
      assert buf[2 + 7 * i..9 + 7 * i] == e[2 + 7 * i..9 + 7 * i];
      RecordRoundTrip(services[i], buf, 2 + 7 * i);
    }
  }
}
